=== FILE: README.md ===
# Discount and platform predictor: a Dafny model

This project models the decision logic of a shopping assistant web app. The app
has two halves:

- An offline **training script** (`model/model_traning.py`). It label-encodes the
  platform and category, buckets price, rating and stock with right-closed bins,
  and derives two features. It then fits four candidate discount regressors and
  keeps the one with the best held-out R², fits a platform classifier, and saves
  everything.
- An online **prediction endpoint** (`app.py`). It gates on the session and on the
  saved artifacts being present. It encodes the category and buckets the budget
  with left-closed thresholds, then assumes a fixed context (rating 4.0, stock 200).
  It either takes the caller's platform or asks the classifier. It feeds the
  platform code into the discount vector, clamps the predicted discount to [0, 50],
  works out the price and savings, and returns tiered advice.

Beside these sits the **contact form**: an email pattern `^[^\s@]+@[^\s@]+\.[^\s@]+$`.
The browser (`contact.js`) and the server (`app.py`) both apply it after trimming.

The trained models, scalers and learning algorithms are uninterpreted functions
held in datatypes. Label encoders are concrete: a strictly sorted sequence of
distinct labels, where a label's code is its index. The 80/20 split is concrete
in its sizes and in when it raises, and a NaN R² is `None`. Arithmetic uses `real`.

Modules, one per file:

| module | file | covers |
|---|---|---|
| `Wrappers` | wrappers.dfy | `Option` and `Result` with failure propagation |
| `Sequences` | sequences.dfy | first-occurrence search, used by the label encoder and the email check |
| `Json` | json.dfy | absent, `null` and string members; Python truthiness of a string field |
| `LabelEncoding` | label_encoding.dfy | `LabelEncoder`: fitting, codes, inverse codes |
| `PandasCut` | pandas_cut.dfy | right-closed `pd.cut` binning; `None` stands for NaN |
| `Features` | features.dfy | engineered rows, the two fixed feature orders, column selection |
| `Artifacts` | artifacts.dfy | the loaded snapshot and the `models_loaded` conjunction |
| `Training` | training.dfy | preprocessing, model selection, the saved snapshot, `main` |
| `Serving` | serving.dfy | `predict` and `generate_recommendations` |
| `TrainServeConsistency` | consistency.dfy | where the serving copy of the features agrees with training, and where it does not |
| `ContactForm` | contact_form.dfy | the email pattern, trimming, the browser guard, the server handler |

## Model

| member | source | states |
|---|---|---|
| LabelEncoding.LessIrreflexive | model/model_traning.py:60-61 | The order `LabelEncoder` sorts labels by never puts a label before itself |
| LabelEncoding.LessAsymmetric | model/model_traning.py:60-61 | Label order is asymmetric |
| LabelEncoding.LessTransitive | model/model_traning.py:60-61 | Label order is transitive |
| LabelEncoding.LessTotal | model/model_traning.py:60-61 | Any two distinct labels are ordered one way or the other |
| LabelEncoding.SortedNoDuplicates | model/model_traning.py:60-61 | A strictly sorted class list holds no label twice |
| LabelEncoding.Insert | model/model_traning.py:60-61 | Adding a label to a strictly sorted list keeps it strictly sorted, and the members become the old ones plus the new label |
| LabelEncoding.SortedDistinct | model/model_traning.py:60-61 | The classes are strictly sorted and are exactly the labels seen |
| LabelEncoding.SortedUnique | model/model_traning.py:60-61 | Two strictly sorted lists with the same members are equal, so the fitted classes are determined by the set of labels |
| LabelEncoding.Fit | model/model_traning.py:60-67 | Fitting gives a valid encoder whose classes are exactly the distinct labels |
| Sequences.IndexOf | contact.js:91 | Finds the first position of an element (the first '@' of an email, the class index of a label), or reports it absent, in which case no position holds it |
| LabelEncoding.Encode | model/model_traning.py:61 | A label has a code iff it was seen in fitting, and the code indexes that label |
| LabelEncoding.Decode | app.py:369 | A code decodes iff it lies in 0..k-1, and it decodes to a class label |
| LabelEncoding.FitCodesOrdered | model/model_traning.py:60-67 | A label is coded iff it occurs in the training labels, and codes follow label order |
| LabelEncoding.DecodeEncode | model/model_traning.py:60-67 | Decoding the code of a seen label gives the label back |
| LabelEncoding.EncodeDecode | app.py:369 | Encoding the decode of an in-range code gives the code back |
| LabelEncoding.DistinctCount | model/model_traning.py:60-67 | A list without repeats has as many members as entries |
| LabelEncoding.CodesDense | model/model_traning.py:60-67 | The codes are exactly 0..k-1, where k is the number of distinct labels, and each decodes to a training label |
| PandasCut.CutFrom | model/model_traning.py:70-72 | Scanning bins from a given edge finds the right-closed bin that holds x, or none when x is outside |
| PandasCut.Cut | model/model_traning.py:70-72 | `pd.cut` yields bin i with edges[i] < x <= edges[i+1], and NaN iff x is outside (edges[0], last edge] |
| PandasCut.CutMonotone | model/model_traning.py:70-72 | Binning is monotone in the value |
| Features.ColumnNames | model/model_traning.py:103-104 | The list of column names follows the list of features position by position |
| Features.Select | model/model_traning.py:106 | Selecting columns gives one value per requested feature, in the requested order |
| Features.ColumnNameInjective | model/model_traning.py:103-104 | Distinct features have distinct column names |
| Artifacts.LoadedIffRequiredPresent | app.py:72-74 | Loading succeeds iff each of the seven required artifacts is present and truthy |
| Artifacts.LoadedIgnoresMetadata | app.py:68-74 | The metadata file plays no part in the loaded flag |
| Training.EdgesWellFormed | model/model_traning.py:70-88 | The price, rating and stock bin edges are strictly increasing |
| Training.PriceBin | model/model_traning.py:70-72 | price_range is defined iff 0 < price <= 100000, and names the (lo, hi] bin holding the price |
| Training.RatingBin | model/model_traning.py:81-83 | rating_category is defined iff 0 < rating <= 5, and names the (lo, hi] bin |
| Training.StockBin | model/model_traning.py:86-88 | stock_status is defined iff 0 < stock <= 500, and names the (lo, hi] bin |
| Training.Effectiveness | model/model_traning.py:75 | discount_effectiveness times price equals price minus discounted price, and lies in [0, 1] when 0 <= discounted price <= price |
| Training.Engineer | model/model_traning.py:56-88 | An engineered row decodes back to its platform and category, copies the raw fields, and holds the three bins. Its price is positive, so effectiveness is well defined. high_discount is 1 iff discount_percent > 20 |
| Training.LabelsFitted | model/model_traning.py:59-67 | Every row's platform and category are classes of the encoders fitted on the data |
| Training.Preprocess | model/model_traning.py:50-94 | Preprocessing succeeds iff every row can be binned. It fails on price iff some price is outside (0, 100000]; on rating iff every price binned and some rating is outside (0, 5]; on stock iff every price and rating binned and some stock is outside (0, 500]. The encoders are fitted on the platform and category columns, and each output row is the engineered input row |
| Training.SelectFrom | model/model_traning.py:131-149 | The strict-`>` scan from minus infinity, resumed from a best-so-far, chooses something iff some candidate has a numeric R², and ends on the first candidate whose R² is maximal among the numeric ones; a NaN score never takes the lead |
| Training.SelectBest | model/model_traning.py:127-153 | A model is chosen iff some R² is a number, and the chosen one is the first with maximal R², so ties go to the earlier candidate |
| Training.FirstBestUnique | model/model_traning.py:146-149 | At most one candidate is the first with maximal numeric R² |
| Training.SplitSizes | model/model_traning.py:110-112 | The held-out count is the ceiling of a fifth of the rows; some row is left to fit on iff there are at least two rows, and at least two rows are held out (so R² is a number) iff there are at least six |
| Training.SamePartitionCounts | model/model_traning.py:169-171 | Two columns that group the rows alike have the same class sizes and class count, so the stratified split accepts one iff it accepts the other |
| Training.StratifyOnCodes | model/model_traning.py:169-171 | Stratifying on the platform codes succeeds iff stratifying on the platform names does: equal names, and only equal names, get equal codes |
| Training.TrainDiscountModel | model/model_traning.py:96-153 | The split raises iff there is at most one row. Otherwise the feature list is the fixed discount order and the scaler is fitted on those columns; a model is kept iff there are at least six rows, in which case its name is the name of the first candidate with maximal R² and the model is that candidate's; with no model the name is empty |
| Training.TrainPlatformModel | model/model_traning.py:155-192 | The stratified split raises iff the platform codes are not stratifiable; otherwise the classification report raises iff it does not accept the predictions. On success the feature list is the fixed platform order, and classifier and scaler are fitted on those columns with the platform codes as target |
| Training.Metadata | model/model_traning.py:231-234 | The metadata holds exactly the discount model name and the fixed platform model name |
| Training.SaveModels | model/model_traning.py:194-237 | Every stage output lands in its own artifact, with the encoders keyed by "platform" and "category" |
| Training.RunTraining | model/model_traning.py:239-269 | The run ends with "no data" iff no rows were loaded; it ends in a preprocessing failure iff rows were loaded and preprocessing fails, reporting Preprocess's own error kind; otherwise the outcome is that of the two training stages and the save |
| Training.TrainAndSave | model/model_traning.py:258-269 | The run either saves or names the failing training stage; it saves iff both stages succeed, a failing discount split wins, and the saved snapshot holds both stages' outputs |
| Training.SavedSnapshotLoads | model/model_traning.py:194-237 | On trainable data a snapshot is saved; it passes the serving loaded check iff there were at least six rows, and its feature lists are the fixed orders |
| Training.SnapshotLoadsIffModelKept | model/model_traning.py:194-237 | The eight saved files pass the serving loaded check iff a discount regressor was kept, the other six being always present and non-empty |
| Training.SavedEncoders | model/model_traning.py:57-67 | On trainable data a snapshot is saved whose encoders are keyed by exactly "platform" and "category" and are fitted on those columns |
| Training.SavedMetadata | model/model_traning.py:231-234 | On trainable data the saved metadata names the fixed platform model, and names one of the four candidates iff there were at least six rows; below that the name is empty |
| Training.DiscountNameChosen | model/model_traning.py:129-153 | With at least two rows the discount stage succeeds, and its name is a candidate name iff there are at least six rows, empty otherwise |
| Training.TrainingSucceedsIff | model/model_traning.py:246-269 | Training saves a snapshot iff rows were loaded, every row can be binned, every platform occurs at least twice with room for each platform on both sides of the split, and the classification report accepts the predictions |
| Training.DiscountTrainingRow | model/model_traning.py:102-107 | Row i of the discount matrix is record i's platform and category codes, price, rating, stock and three bins, in that order, and its target is the record's discount |
| Training.PlatformTrainingRow | model/model_traning.py:161-166 | Row i of the platform matrix is record i's category code, price, discount, rating, stock, price bin and discount effectiveness, and its target decodes to the record's platform |
| Serving.BudgetOf | app.py:309 | A missing budget defaults to 5000. A non-numeric budget is an error |
| Serving.CategoryOf | app.py:308-314 | A missing category defaults to "Electronics". `null` or an empty string is an error |
| Serving.PreferredPlatform | app.py:347 | A platform is supplied iff the field is a non-empty string |
| Serving.PriceRange | app.py:320-329 | The bucket lies in 0..4 and is the left-closed band [t(r-1), t(r)) of the thresholds 1000, 5000, 15000 and 30000 |
| Serving.PriceRangeMonotone | app.py:320-329 | The budget bucket is monotone in the budget |
| Serving.RatingCategory | app.py:337-344 | The rating bucket lies in 0..3 and is the right-closed band of 3.5, 4.0 and 4.5 |
| Serving.EncoderFor | app.py:317 | Looking up an encoder fails iff the key is missing |
| Serving.Transform | app.py:317 | Transform fails iff the label is unseen; otherwise the code decodes back to the label |
| Serving.InverseTransform | app.py:369 | Inverse transform fails iff the code is out of range; otherwise it is the decode |
| Serving.MaxOf | app.py:370 | The maximum is a member and bounds every entry |
| Serving.ChoosePlatform | app.py:347-370 | The chosen code decodes to the chosen name. A supplied platform comes back unchanged with confidence 100, and it succeeds iff that platform is a known class. Otherwise it succeeds iff the classifier's code is a known class and it yields some probabilities, and the confidence is 100 × the largest class probability, which lies in [0, 100] for a probability vector |
| Serving.Clamp | app.py:391 | The clamped discount is max(0, min(50, d)) and always lies in [0, 50] |
| Serving.PriceArithmetic | app.py:396-397 | The savings are budget × d / 100. For a non-negative budget and d in [0, 50], the discounted price lies between half the budget and the budget |
| Serving.Recommendations | app.py:429-449 | Exactly one tier pair is chosen: > 30 excellent, (20, 30] good, otherwise moderate. The high-value note appears iff the budget exceeds 10000. The list ends with the compare and ratings notes, so it has 4 or 5 entries |
| Serving.ModelUsed | app.py:414 | Without metadata, the name is "ML Model". With metadata, it is the stored discount model name, or an error if the key is missing |
| Serving.Infer | app.py:303-427 | Every failure inside the prediction body is a 400. A prediction's discount lies in [0, 50], its estimated price and category are the requested ones (with the defaults), its savings are the discount's share of the budget, its discounted price is the budget less the discount, the two add up to the budget, and there are 4 or 5 recommendations. Its platform and confidence are those of the platform stage run on the request's category code and budget, and its discount is the clamped regressor output on the vector built from that stage's platform code. The model it names is the stored discount model name, or "ML Model" when no metadata was loaded |
| Serving.Predict | app.py:282-427 | No session gives 401 before anything else. Models not loaded gives 500. Any other failure is 400. On success the discount lies in [0, 50], the estimated price and category echo the request, the discounted price is the budget less the discount, discounted price plus savings equals the budget, and there are 4 or 5 recommendations. Platform, confidence and discount come from the platform stage and the regressor chained on its code. The model it names is the stored discount model name, or "ML Model" when no metadata was loaded |
| Serving.PredictSucceedsIff | app.py:282-427 | A prediction is returned iff the user is logged in, the models are loaded, there is a body, the budget parses, the category is non-empty and known, a supplied platform is known or else the classifier's code is known with some probabilities, and non-empty metadata names the model |
| Serving.BudgetCheckedBeforeCategory | app.py:308-314 | A non-numeric budget is reported even when the category is also missing |
| Serving.UnseenCategoryFails | app.py:317 | An unseen category gives a 400 naming that label |
| Serving.SuppliedPlatformSkipsClassifier | app.py:347-350 | With a platform supplied, the response does not depend on the platform classifier or its scaler |
| Serving.UnseenPlatformFails | app.py:348 | An unseen supplied platform gives a 400 naming that label |
| Serving.PredictionIsChained | app.py:377-401 | The discount is the clamped regressor output on [platform code, category code, budget, 4.0, 200, price bucket, 1, 2], where the platform code is the platform stage's own and decodes to the returned platform; the advice is computed from the clamped discount |
| Serving.ClassifierChoosesPlatform | app.py:352-370 | With no platform in the request, the returned platform is the decoded classifier prediction on the request's platform vector, and the confidence is 100 times its largest class probability |
| Serving.FeatureListsUnread | app.py:72-73 | Beyond the presence check, the saved feature lists do not affect the response |
| TrainServeConsistency.PriceBucketsAgreeIff | app.py:320-329 | Training and serving put a price in the same bucket iff it lies in (0, 100000] and is not one of 1000, 5000, 15000 or 30000 |
| TrainServeConsistency.PriceBucketsOffByOneOnEdges | model/model_traning.py:70-72 | On each of the four shared edges, serving's bucket is one above training's |
| TrainServeConsistency.PriceOutsideTrainingRange | model/model_traning.py:70-72 | Prices outside (0, 100000] have no training bucket, while serving still gives 0 or 4 |
| TrainServeConsistency.PriceBucketExamples | app.py:320-329 | 999 goes to bucket 0 in both. 1000 goes to 1 when serving but 0 in training. 30000 goes to 4 when serving but 3 in training. 100001 goes to 4 when serving and has no training bucket |
| TrainServeConsistency.RatingBucketsAgreeIff | app.py:337-344 | Training and serving rating buckets agree exactly on (0, 5] |
| TrainServeConsistency.ServingContextMatchesTraining | app.py:332-344 | The assumed rating 4.0 falls in bucket 1, and stock 200 falls in status 2, in both copies |
| TrainServeConsistency.DiscountVectorAgreesWithTraining | app.py:377-386 | For a product in the assumed context, the serving discount vector equals the training row's discount-feature columns iff its price is not on a bucket edge |
| TrainServeConsistency.PlatformVectorAgreesWithTraining | app.py:355-363 | For a product in the assumed context with a 15% discount, the serving platform vector equals the training row's platform-feature columns iff its price is not on a bucket edge |
| ContactForm.MatchUsesFirstAt | contact.js:91 | Any match of the pattern has its '@' at the first '@' of the string |
| ContactForm.FirstAtGivesMatch | contact.js:91 | Plain runs around the first '@', with a dot inside the domain, make the pattern match |
| ContactForm.ValidateEmail | contact.js:90-93 | The check accepts exactly the language of the anchored pattern: a non-empty local part, '@', then a domain with an inner dot, none of which contains whitespace or another '@' |
| ContactForm.AcceptedHasNoWhitespace | contact.js:91 | An accepted address contains no whitespace |
| ContactForm.AcceptedHasOneAt | contact.js:91 | An accepted address has exactly one '@', which is neither first nor last |
| ContactForm.ValidateEmailExamples | contact.js:91 | "a@b.c", "a@b..c" and "a@b.c." are accepted. "a@b.", "a@.c", "@b.c", "a@b@c.d" and "a b@c.d" are rejected |
| ContactForm.LeadingSpace | contact.js:13-15 | Finds the first non-whitespace position; everything before it is whitespace |
| ContactForm.TrailingSpace | contact.js:13-15 | Finds the end of the last non-whitespace run; everything after it is whitespace |
| ContactForm.Trim | contact.js:13-15 | The trimmed string is a slice with only whitespace outside it and none at either end |
| ContactForm.TrimKeepsTrimmed | contact.js:13-15 | A string with no whitespace at either end is unchanged by trimming |
| ContactForm.TrimIdempotent | app.py:150-152 | Trimming twice is the same as trimming once |
| ContactForm.TrimmedEmailSpaceOnlyAtEnds | contact.js:13-22 | An email the browser accepts has whitespace only in its leading and trailing runs |
| ContactForm.ServerPatternMatches | app.py:163-164 | `re.match` with `$` also accepts a match followed by one final newline |
| ContactForm.ServerAgreesOnTrimmed | app.py:151-164 | On stripped input, the server pattern accepts exactly what the browser pattern accepts |
| ContactForm.OnSubmit | contact.js:6-28 | The handler posts iff the trimmed email matches, and it posts the three trimmed fields. Otherwise it warns and returns before any request or button change |
| ContactForm.ContactStatus | app.py:155-188 | Success answers 200 and every failure answers 400 |
| ContactForm.StripField | app.py:150-152 | A missing member reads as "", a `null` member fails, and a string is stripped |
| ContactForm.Contact | app.py:146-188 | A missing body or a `null` member is a malformed request. Blank fields come before the email check: for a body without nulls the answer is "all fields required" iff some stripped field is empty. Success carries the stripped fields, all non-empty, with an email that matches the pattern |
| ContactForm.ContactOnTrimmed | app.py:150-168 | On fields with no whitespace at either end and a matching email, the server fails only when the name or message is blank, and otherwise accepts the fields unchanged |
| ContactForm.PostedEmailPassesServer | contact.js:21-28 | When the trimmed email matches, the browser posts the trimmed fields, and the server never refuses them for their email format |

## Left out

- Flask routing, templates, CORS, cookies, signup, login and logout (app.py:85-143, 190-280). The session appears only as the `loggedIn` flag of a request.
- MySQL access, including the category and platform listing routes and the training data load. The loaded table is a parameter of `Training.RunTraining`.
- Pickle loading and saving. The model keeps the seven-artifact loaded check and the artifact contents. It does not model that an exception while loading one file skips the later files, or that the sequential writes are not atomic.
- sklearn and xgboost internals are uninterpreted functions: `fit`, `predict`, `predict_proba`, `StandardScaler`, which rows `train_test_split` picks, and the value of `r2_score`. So are the printed RMSE, MAE and accuracy metrics. The split's sizes and its three failure conditions (no row left to fit on, a class with a single row, fewer rows on one side than classes) are modelled; an estimator that raises while fitting is not.
- Training.TrainPlatformModel: whether `classification_report` raises depends on the predicted labels (it raises when the labels in the test targets and predictions do not number as many as the encoder's classes, model/model_traning.py:189-190), so it is the learner-supplied `reportAccepts` answer rather than a computed condition.
- Training.TrainDiscountModel: an R² is NaN only when fewer than two rows are held out; a regressor that itself predicts NaN or infinity is not modelled.
- ContactForm.Contact: JSON members that are neither strings nor `null` make `.strip()` raise AttributeError, answered 400 by app.py:183-188; such bodies are not modelled.
- IEEE floating point: NaN or infinite model outputs and the float comparison semantics that go with them. Arithmetic uses exact reals.
- Serving.Predict: the response carries unrounded values. Rounding to one or two decimals at app.py:406-411 is not modelled, so the sum identity holds before rounding.
- Serving.Recommendations: the advice strings are constructors carrying their arguments. The `{discount:.0f}` formatting and the emoji text are not modelled.
- Serving.CategoryOf: JSON values other than strings and `null` (numbers, lists) for category or platform are not modelled.
- Estimator truthiness in the loaded check (`__len__` on ensemble models) is not modelled. Each loaded model or scaler counts as truthy when present.
- ContactForm.ValidateEmail: `\s` is one abstract whitespace class shared by JavaScript and Python. Their Unicode whitespace sets differ in a few code points, and that difference is not modelled.
- static/predict.js is not part of this model. It is page and fetch code whose only logic maps error strings to messages.
- The notification and FAQ code in contact.js:95-167, and the browser's handling of the server's reply after the request.
- Console output, logging and tracebacks.

=== FILE: artifacts.dfy ===
/**
 * The persisted snapshot shared by training and serving: two models, their
 * scalers and feature-name lists, the label encoders and the metadata. The
 * learned objects are opaque functions; each file either loaded or is absent.
 */
module Artifacts {
  import opened Wrappers
  import opened LabelEncoding

  /** A trained regressor: feature vector to predicted discount. */
  datatype Regressor = Regressor(predict: seq<real> -> real)

  /** A trained classifier: predicted class code and per-class probabilities. */
  datatype Classifier = Classifier(predict: seq<real> -> int, proba: seq<real> -> seq<real>)

  /** A fitted standard scaler. */
  datatype Scaler = Scaler(transform: seq<real> -> seq<real>)

  /** The eight pickled files, `None` where a file was missing. */
  datatype Snapshot = Snapshot(
    discountModel: Option<Regressor>,
    discountScaler: Option<Scaler>,
    discountFeatures: Option<seq<string>>,
    platformModel: Option<Classifier>,
    platformScaler: Option<Scaler>,
    platformFeatures: Option<seq<string>>,
    labelEncoders: Option<map<string, Encoder>>,
    metadata: Option<map<string, string>>)

  const PlatformKey := "platform"
  const CategoryKey := "category"
  const DiscountModelNameKey := "discount_model_name"
  const PlatformModelNameKey := "platform_model_name"

  /** Python truthiness of a loaded list or dict: present and non-empty. */
  predicate NonEmptyList<T>(x: Option<seq<T>>)
  {
    x.Some? && |x.value| > 0
  }

  predicate NonEmptyMap<K, V>(x: Option<map<K, V>>)
  {
    x.Some? && |x.value| > 0
  }

  /** The serving gate: every one of the seven required objects is truthy. */
  predicate ModelsLoaded(s: Snapshot)
  {
    && s.discountModel.Some?
    && s.discountScaler.Some?
    && NonEmptyList(s.discountFeatures)
    && s.platformModel.Some?
    && s.platformScaler.Some?
    && NonEmptyList(s.platformFeatures)
    && NonEmptyMap(s.labelEncoders)
  }

  /** The eight artifact files by name. */
  datatype Artifact =
    | DiscountModelFile
    | DiscountScalerFile
    | DiscountFeaturesFile
    | PlatformModelFile
    | PlatformScalerFile
    | PlatformFeaturesFile
    | LabelEncodersFile
    | MetadataFile

  /** Whether one artifact is loaded and truthy. */
  predicate Present(s: Snapshot, a: Artifact)
  {
    match a
    case DiscountModelFile => s.discountModel.Some?
    case DiscountScalerFile => s.discountScaler.Some?
    case DiscountFeaturesFile => NonEmptyList(s.discountFeatures)
    case PlatformModelFile => s.platformModel.Some?
    case PlatformScalerFile => s.platformScaler.Some?
    case PlatformFeaturesFile => NonEmptyList(s.platformFeatures)
    case LabelEncodersFile => NonEmptyMap(s.labelEncoders)
    case MetadataFile => NonEmptyMap(s.metadata)
  }

  predicate Required(a: Artifact)
  {
    a != MetadataFile
  }

  /** Serving is ready exactly when all seven required artifacts are present;
      the metadata file is optional. */
  lemma LoadedIffRequiredPresent(s: Snapshot)
    ensures ModelsLoaded(s) <==> forall a :: Required(a) ==> Present(s, a)
  {
    if forall a :: Required(a) ==> Present(s, a) {
      assert Present(s, DiscountModelFile) && Present(s, DiscountScalerFile);
      assert Present(s, DiscountFeaturesFile) && Present(s, PlatformModelFile);
      assert Present(s, PlatformScalerFile) && Present(s, PlatformFeaturesFile);
      assert Present(s, LabelEncodersFile);
    }
  }

  /** Whether the metadata loaded has no effect on readiness. */
  lemma LoadedIgnoresMetadata(s: Snapshot, m: Option<map<string, string>>)
    ensures ModelsLoaded(s.(metadata := m)) == ModelsLoaded(s)
  {
  }
}

=== FILE: consistency.dfy ===
/**
 * Where the serving copy of the feature rules agrees with the training copy,
 * and where it does not. Serving buckets the budget with left-closed
 * thresholds and no limits; training bins the price right-closed within
 * (0, 100000]. The two agree everywhere in that range except on the four
 * inner edges, where serving answers one bucket higher.
 */
module TrainServeConsistency {
  import opened Wrappers
  import opened LabelEncoding
  import opened Features
  import Training
  import Serving

  predicate OnPriceEdge(b: real)
  {
    b in Serving.PriceThresholds
  }

  /** The two price buckets coincide exactly inside (0, 100000] off the inner edges. */
  lemma PriceBucketsAgreeIff(b: real)
    ensures (Training.PriceBin(b).Some? && Training.PriceBin(b).value == Serving.PriceRange(b))
      <==> 0.0 < b <= 100000.0 && !OnPriceEdge(b)
  {
    var t := Training.PriceBin(b);
    if t.Some? && !OnPriceEdge(b) {
      assert b != 1000.0 && b != 5000.0 && b != 15000.0 && b != 30000.0;
    }
  }

  /** On an inner edge training puts the price one bucket lower than serving. */
  lemma PriceBucketsOffByOneOnEdges(b: real)
    requires OnPriceEdge(b)
    ensures Training.PriceBin(b).Some?
    ensures Training.PriceBin(b).value == Serving.PriceRange(b) - 1
  {
  }

  /** Outside (0, 100000] training has no bucket (preprocessing aborts), while
      serving still answers 0 below and 4 above. */
  lemma PriceOutsideTrainingRange(b: real)
    requires b <= 0.0 || b > 100000.0
    ensures Training.PriceBin(b).None?
    ensures Serving.PriceRange(b) == if b <= 0.0 then 0 else 4
  {
  }

  /** The boundary examples: 999 and 1000 and 30000 in both copies. */
  lemma PriceBucketExamples()
    ensures Serving.PriceRange(999.0) == 0 && Training.PriceBin(999.0) == Some(0)
    ensures Serving.PriceRange(1000.0) == 1 && Training.PriceBin(1000.0) == Some(0)
    ensures Serving.PriceRange(30000.0) == 4 && Training.PriceBin(30000.0) == Some(3)
    ensures Serving.PriceRange(100001.0) == 4 && Training.PriceBin(100001.0) == None
  {
  }

  /** The rating tables coincide exactly on (0, 5]. */
  lemma RatingBucketsAgreeIff(r: real)
    ensures (Training.RatingBin(r).Some? && Training.RatingBin(r).value == Serving.RatingCategory(r))
      <==> 0.0 < r <= 5.0
  {
  }

  /** The fixed serving context is what training would derive for it. */
  lemma ServingContextMatchesTraining()
    ensures Serving.RatingCategory(Serving.RatingPreference) == 1
    ensures Training.RatingBin(Serving.RatingPreference) == Some(1)
    ensures Training.StockBin(Serving.StockEstimate) == Some(Serving.StockStatus as nat)
  {
  }

  /** A product observed in the assumed context (rating 4.0, stock 200). */
  predicate InServingContext(p: Training.ProductRecord)
  {
    p.rating == Serving.RatingPreference && p.stock == Serving.StockEstimate
  }

  /** The serving discount vector is the training row's vector in the discount
      feature order, position by position, exactly when the price is off the edges. */
  lemma DiscountVectorAgreesWithTraining(pe: Encoder, ce: Encoder, p: Training.ProductRecord)
    requires Training.Binnable(p) && InServingContext(p)
    requires p.platform in pe.classes && p.category in ce.classes
    ensures var row := Training.Engineer(pe, ce, p);
      var v := Serving.DiscountVector(Encode(pe, p.platform).value, Encode(ce, p.category).value,
                                      p.price, Serving.PriceRange(p.price),
                                      Serving.RatingCategory(Serving.RatingPreference));
      v == Select(row, DiscountFeatureCols) <==> !OnPriceEdge(p.price)
  {
    var row := Training.Engineer(pe, ce, p);
    var v := Serving.DiscountVector(Encode(pe, p.platform).value, Encode(ce, p.category).value,
                                    p.price, Serving.PriceRange(p.price),
                                    Serving.RatingCategory(Serving.RatingPreference));
    var w := Select(row, DiscountFeatureCols);
    PriceBucketsAgreeIff(p.price);
    ServingContextMatchesTraining();
    assert v[5] == Serving.PriceRange(p.price) as real && w[5] == row.priceRange as real;
    if !OnPriceEdge(p.price) {
      assert forall i :: 0 <= i < 8 ==> v[i] == w[i];
    }
  }

  /** The classifier input matches a training row whose discount was exactly the
      placeholder 15% (hence effectiveness 0.15), again off the price edges. */
  lemma PlatformVectorAgreesWithTraining(pe: Encoder, ce: Encoder, p: Training.ProductRecord)
    requires Training.Binnable(p) && InServingContext(p)
    requires p.platform in pe.classes && p.category in ce.classes
    requires p.discountPercent == Serving.DiscountEstimate
    requires p.discountedPrice == p.price * (1.0 - Serving.EffectivenessEstimate)
    ensures var row := Training.Engineer(pe, ce, p);
      var v := Serving.PlatformVector(Encode(ce, p.category).value, p.price, Serving.PriceRange(p.price));
      v == Select(row, PlatformFeatureCols) <==> !OnPriceEdge(p.price)
  {
    var row := Training.Engineer(pe, ce, p);
    var v := Serving.PlatformVector(Encode(ce, p.category).value, p.price, Serving.PriceRange(p.price));
    var w := Select(row, PlatformFeatureCols);
    PriceBucketsAgreeIff(p.price);
    assert row.discountEffectiveness == Serving.EffectivenessEstimate by {
      var e := row.discountEffectiveness;
      assert e == Training.Effectiveness(p.price, p.discountedPrice);
      assert p.price - p.discountedPrice == 0.15 * p.price;
      assert e * p.price == 0.15 * p.price;
      assert (e - 0.15) * p.price == 0.0;
      assert p.price > 0.0;
    }
    assert v[5] == Serving.PriceRange(p.price) as real && w[5] == row.priceRange as real;
    if !OnPriceEdge(p.price) {
      assert forall i :: 0 <= i < 7 ==> v[i] == w[i];
    }
  }
}

=== FILE: contact_form.dfy ===
/**
 * The contact form: the email pattern `^[^\s@]+@[^\s@]+\.[^\s@]+$` shared by
 * the browser and the server, the trimming in front of it, the browser's
 * submit guard and the server's field checks. The whitespace class `\s` is a
 * parameter; every choice of it contains space and newline and no ASCII
 * letter, digit, '.' or '@'.
 */
module ContactForm {
  import opened Wrappers
  import opened Sequences
  import opened Json

  predicate AsciiAlnum(c: char)
  {
    'a' <= c <= 'z' || 'A' <= c <= 'Z' || '0' <= c <= '9'
  }

  type Whitespace = ws: char -> bool
    | ws(' ') && ws('\n') && !ws('.') && !ws('@') && forall c :: AsciiAlnum(c) ==> !ws(c)
    witness (c: char) => c == ' ' || c == '\n'

  /** A character the class `[^\s@]` accepts. */
  predicate Plain(ws: Whitespace, c: char)
  {
    !ws(c) && c != '@'
  }

  /** Every character of `s[lo..hi]` is in `[^\s@]`. */
  predicate PlainIn(ws: Whitespace, s: string, lo: int, hi: int)
    requires 0 <= lo && hi <= |s|
  {
    forall k :: lo <= k < hi ==> Plain(ws, s[k])
  }

  /** The pattern matches with its `@` at `i` and its literal `.` at `j`:
      `s[..i]`, `s[i+1..j]` and `s[j+1..]` are non-empty runs of `[^\s@]`. */
  ghost predicate MatchesAt(ws: Whitespace, s: string, i: int, j: int)
  {
    && 0 < i && i + 1 < j && j + 1 < |s|
    && s[i] == '@' && s[j] == '.'
    && PlainIn(ws, s, 0, i) && PlainIn(ws, s, i + 1, j) && PlainIn(ws, s, j + 1, |s|)
  }

  /** The language of the anchored pattern: some choice of `@` and `.` fits. */
  ghost predicate PatternMatches(ws: Whitespace, s: string)
  {
    exists i, j :: MatchesAt(ws, s, i, j)
  }

  /** The checks `validateEmail` amounts to, made at the first '@'. */
  predicate SplitAtFirstAt(ws: Whitespace, s: string, i: nat)
    requires i < |s|
  {
    && 0 < i && PlainIn(ws, s, 0, i) && PlainIn(ws, s, i + 1, |s|)
    && exists k :: i + 1 < k < |s| - 1 && s[k] == '.'
  }

  /** Any match of the pattern has its `@` at the first '@' of the string. */
  lemma MatchUsesFirstAt(ws: Whitespace, s: string, i: int, j: int)
    requires MatchesAt(ws, s, i, j)
    ensures IndexOf(s, '@') == Some(i)
    ensures SplitAtFirstAt(ws, s, i)
  {
    assert s[i] in s;
    var r := IndexOf(s, '@').value;
    assert !Plain(ws, s[r]);
    assert PlainIn(ws, s, i + 1, |s|) by {
      assert Plain(ws, s[j]);
    }
  }

  /** A dot after the first '@' with a plain run on each side gives a match. */
  lemma FirstAtGivesMatch(ws: Whitespace, s: string, i: nat)
    requires i < |s| && SplitAtFirstAt(ws, s, i) && s[i] == '@'
    ensures PatternMatches(ws, s)
  {
    var k :| i + 1 < k < |s| - 1 && s[k] == '.';
    assert MatchesAt(ws, s, i, k);
  }

  /** `validateEmail`: the regular expression's test, decided at the first '@'. */
  function ValidateEmail(ws: Whitespace, s: string): (ok: bool)
    ensures ok <==> PatternMatches(ws, s)
  {
    match IndexOf(s, '@')
    case None => false
    case Some(i) =>
      assert PatternMatches(ws, s) ==> SplitAtFirstAt(ws, s, i) by {
        forall i', j | MatchesAt(ws, s, i', j) ensures SplitAtFirstAt(ws, s, i) {
          MatchUsesFirstAt(ws, s, i', j);
        }
      }
      if SplitAtFirstAt(ws, s, i) then FirstAtGivesMatch(ws, s, i); true else false
  }

  /** An accepted address contains no whitespace at all. */
  lemma AcceptedHasNoWhitespace(ws: Whitespace, s: string)
    requires ValidateEmail(ws, s)
    ensures forall k :: 0 <= k < |s| ==> !ws(s[k])
  {
    var i, j :| MatchesAt(ws, s, i, j);
    forall k | 0 <= k < |s| ensures !ws(s[k]) {
      if k != i && k != j {
        assert Plain(ws, s[k]);
      }
    }
  }

  /** An accepted address has exactly one '@', neither first nor last. */
  lemma AcceptedHasOneAt(ws: Whitespace, s: string)
    requires ValidateEmail(ws, s)
    ensures exists i :: 0 < i < |s| - 1 && s[i] == '@'
    ensures forall a, b :: 0 <= a < b < |s| ==> s[a] != '@' || s[b] != '@'
  {
    var i, j :| MatchesAt(ws, s, i, j);
    forall a, b | 0 <= a < b < |s| ensures s[a] != '@' || s[b] != '@' {
      if a != i {
        assert Plain(ws, s[a]);
      } else {
        assert Plain(ws, s[b]);
      }
    }
  }

  /** Accepted and rejected examples. */
  lemma ValidateEmailExamples(ws: Whitespace)
    ensures ValidateEmail(ws, "a@b.c")
    ensures ValidateEmail(ws, "a@b..c")
    ensures ValidateEmail(ws, "a@b.c.")
    ensures !ValidateEmail(ws, "a@b.")
    ensures !ValidateEmail(ws, "a@.c")
    ensures !ValidateEmail(ws, "@b.c")
    ensures !ValidateEmail(ws, "a@b@c.d")
    ensures !ValidateEmail(ws, "a b@c.d")
  {
    assert AsciiAlnum('a') && AsciiAlnum('b') && AsciiAlnum('c');
    assert "a@b.c"[3] == '.';
    assert "a@b..c"[3] == '.';
    assert "a@b.c."[3] == '.';
    assert "a@b@c.d"[3] == '@';
    assert "a b@c.d"[1] == ' ';
  }

  /** Everything outside `s[a..b]` is whitespace. */
  ghost predicate OnlySpaceOutside(ws: Whitespace, s: string, a: int, b: int)
    requires 0 <= a <= b <= |s|
  {
    (forall k :: 0 <= k < a ==> ws(s[k])) && (forall k :: b <= k < |s| ==> ws(s[k]))
  }

  /** Neither end of `s` is whitespace. */
  predicate NoEdgeSpace(ws: Whitespace, s: string)
  {
    |s| > 0 ==> !ws(s[0]) && !ws(s[|s| - 1])
  }

  function LeadingSpace(ws: Whitespace, s: string, a: nat): (r: nat)
    requires a <= |s| && forall k :: 0 <= k < a ==> ws(s[k])
    ensures a <= r <= |s| && (forall k :: 0 <= k < r ==> ws(s[k])) && (r < |s| ==> !ws(s[r]))
    decreases |s| - a
  {
    if a < |s| && ws(s[a]) then LeadingSpace(ws, s, a + 1) else a
  }

  function TrailingSpace(ws: Whitespace, s: string, a: nat, b: nat): (r: nat)
    requires a <= b <= |s| && forall k :: b <= k < |s| ==> ws(s[k])
    requires a < |s| ==> !ws(s[a])
    ensures a <= r <= b && (forall k :: r <= k < |s| ==> ws(s[k]))
    ensures a < r ==> !ws(s[r - 1])
    ensures r == a ==> a == |s|
    decreases b - a
  {
    if a < b && ws(s[b - 1]) then TrailingSpace(ws, s, a, b - 1) else b
  }

  /** `trim()` / `strip()`: the middle of `s` left after dropping whitespace at both ends. */
  function Trim(ws: Whitespace, s: string): (r: string)
    ensures exists a, b :: (0 <= a <= b <= |s| && r == s[a..b] && OnlySpaceOutside(ws, s, a, b))
    ensures NoEdgeSpace(ws, r)
  {
    var a := LeadingSpace(ws, s, 0);
    var b := TrailingSpace(ws, s, a, |s|);
    assert OnlySpaceOutside(ws, s, a, b);
    s[a..b]
  }

  /** A string with no whitespace at either end is its own trim. */
  lemma TrimKeepsTrimmed(ws: Whitespace, s: string)
    requires NoEdgeSpace(ws, s)
    ensures Trim(ws, s) == s
  {
    assert LeadingSpace(ws, s, 0) == 0;
    assert TrailingSpace(ws, s, 0, |s|) == |s|;
  }

  /** Trimming twice is trimming once. */
  lemma TrimIdempotent(ws: Whitespace, s: string)
    ensures Trim(ws, Trim(ws, s)) == Trim(ws, s)
  {
    TrimKeepsTrimmed(ws, Trim(ws, s));
  }

  /** Whitespace survives in an accepted field only at its two ends: the field is
      a whitespace-free middle between two runs of whitespace. */
  lemma TrimmedEmailSpaceOnlyAtEnds(ws: Whitespace, s: string)
    requires ValidateEmail(ws, Trim(ws, s))
    ensures exists a, b :: (0 <= a <= b <= |s| && OnlySpaceOutside(ws, s, a, b)
      && forall k :: a <= k < b ==> !ws(s[k]))
  {
    var t := Trim(ws, s);
    var a, b :| 0 <= a <= b <= |s| && t == s[a..b] && OnlySpaceOutside(ws, s, a, b);
    AcceptedHasNoWhitespace(ws, t);
    forall k | a <= k < b ensures !ws(s[k]) {
      assert t[k - a] == s[k];
    }
  }

  /** Python's `re.match` with `$`: the pattern may also end just before a final newline. */
  function ServerPatternMatches(ws: Whitespace, s: string): (ok: bool)
    ensures ok <==> PatternMatches(ws, s) || (|s| > 0 && s[|s| - 1] == '\n' && PatternMatches(ws, s[..|s| - 1]))
  {
    ValidateEmail(ws, s) || (|s| > 0 && s[|s| - 1] == '\n' && ValidateEmail(ws, s[..|s| - 1]))
  }

  /** The extra newline case cannot arise after stripping, so on stripped input the
      server's pattern accepts exactly what the browser's does. */
  lemma ServerAgreesOnTrimmed(ws: Whitespace, s: string)
    ensures ServerPatternMatches(ws, Trim(ws, s)) == ValidateEmail(ws, Trim(ws, s))
  {
  }

  /** The three trimmed fields the browser posts and the server accepts. */
  datatype FormData = FormData(name: string, email: string, message: string)

  /** What the submit handler does: warn and stop, or show the spinner and post. */
  datatype SubmitAction = WarnInvalidEmail | PostWithSpinner(form: FormData)

  /** The browser's submit handler up to the request. */
  function OnSubmit(ws: Whitespace, name: string, email: string, message: string): (r: SubmitAction)
    ensures r.PostWithSpinner? <==> PatternMatches(ws, Trim(ws, email))
    ensures r.PostWithSpinner? ==> r.form == FormData(Trim(ws, name), Trim(ws, email), Trim(ws, message))
  {
    var form := FormData(Trim(ws, name), Trim(ws, email), Trim(ws, message));
    if !ValidateEmail(ws, form.email) then WarnInvalidEmail else PostWithSpinner(form)
  }

  datatype ContactRequest = ContactRequest(name: Field, email: Field, message: Field)

  datatype ContactError =
    | MalformedRequest   // no JSON object, or a member that is null
    | AllFieldsRequired
    | InvalidEmailFormat

  /** Every failure of the handler answers 400. */
  function ContactStatus(r: Result<FormData, ContactError>): (code: int)
    ensures code == 200 <==> r.Success?
    ensures r.Failure? ==> code == 400
  {
    if r.Success? then 200 else 400
  }

  /** A form field as the server reads it: a missing member is empty, a string is
      stripped, and a null member is an error because it cannot be stripped. */
  function StripField(ws: Whitespace, f: Field): (r: Result<string, ContactError>)
    ensures r.Failure? <==> f.Null?
    ensures f.Absent? ==> r == Success("")
    ensures f.Str? ==> r == Success(Trim(ws, f.s))
  {
    match f
    case Absent => Success("")
    case Null => Failure(MalformedRequest)
    case Str(s) => Success(Trim(ws, s))
  }

  predicate HasNull(q: ContactRequest)
  {
    q.name.Null? || q.email.Null? || q.message.Null?
  }

  /** The server's contact handler; success carries the stripped fields. */
  function Contact(ws: Whitespace, body: Option<ContactRequest>): (r: Result<FormData, ContactError>)
    ensures body.None? || HasNull(body.value) <==> r == Failure(MalformedRequest)
    ensures body.Some? && !HasNull(body.value) ==> (r == Failure(AllFieldsRequired) <==>
      || StripField(ws, body.value.name).value == []
      || StripField(ws, body.value.email).value == []
      || StripField(ws, body.value.message).value == [])
    ensures r.Success? ==> |r.value.name| > 0 && |r.value.email| > 0 && |r.value.message| > 0
    ensures r.Success? ==> PatternMatches(ws, r.value.email)
    ensures r == Failure(InvalidEmailFormat) ==> (|StripField(ws, body.value.name).value| > 0
      && |StripField(ws, body.value.email).value| > 0 && |StripField(ws, body.value.message).value| > 0)
    ensures r.Success? || r == Failure(InvalidEmailFormat) ==> (body.Some? && body.value.email.Str?
      && (r.Success? <==> PatternMatches(ws, Trim(ws, body.value.email.s))))
    ensures r.Success? ==> r.value == FormData(StripField(ws, body.value.name).value,
      StripField(ws, body.value.email).value, StripField(ws, body.value.message).value)
  {
    var req :- if body.Some? then Success(body.value) else Failure(MalformedRequest);
    var name :- StripField(ws, req.name);
    var email :- StripField(ws, req.email);
    var message :- StripField(ws, req.message);
    if |name| == 0 || |email| == 0 || |message| == 0 then Failure(AllFieldsRequired)
    else if !ServerPatternMatches(ws, email) then Failure(InvalidEmailFormat)
    else
      ServerAgreesOnTrimmed(ws, req.email.s);
      Success(FormData(name, email, message))
  }

  /** On fields that are already trimmed, the server fails only for a blank name or message. */
  lemma ContactOnTrimmed(ws: Whitespace, f: FormData)
    requires NoEdgeSpace(ws, f.name) && NoEdgeSpace(ws, f.email) && NoEdgeSpace(ws, f.message)
    requires ValidateEmail(ws, f.email)
    ensures Contact(ws, Some(ContactRequest(Str(f.name), Str(f.email), Str(f.message))))
      == if |f.name| == 0 || |f.message| == 0 then Failure(AllFieldsRequired) else Success(f)
  {
    TrimKeepsTrimmed(ws, f.name);
    TrimKeepsTrimmed(ws, f.email);
    TrimKeepsTrimmed(ws, f.message);
    assert StripField(ws, Str(f.name)) == Success(f.name);
    assert StripField(ws, Str(f.email)) == Success(f.email);
    assert StripField(ws, Str(f.message)) == Success(f.message);
    assert |f.email| > 0;
    assert ServerPatternMatches(ws, f.email);
  }

  /** Whatever the browser posts is never refused by the server for its email format. */
  lemma PostedEmailPassesServer(ws: Whitespace, name: string, email: string, message: string)
    requires ValidateEmail(ws, Trim(ws, email))
    ensures OnSubmit(ws, name, email, message)
      == PostWithSpinner(FormData(Trim(ws, name), Trim(ws, email), Trim(ws, message)))
    ensures Contact(ws, Some(ContactRequest(Str(Trim(ws, name)), Str(Trim(ws, email)), Str(Trim(ws, message)))))
      != Failure(InvalidEmailFormat)
  {
    ContactOnTrimmed(ws, FormData(Trim(ws, name), Trim(ws, email), Trim(ws, message)));
  }
}

=== FILE: features.dfy ===
/**
 * The engineered columns of a product row and the two fixed feature orders
 * the models are trained on.
 */
module Features {

  /** The columns a model can be fed, by their DataFrame names. */
  datatype Feature =
    | PlatformEncoded
    | CategoryEncoded
    | Price
    | DiscountPercent
    | Rating
    | Stock
    | PriceRange
    | RatingCategory
    | StockStatus
    | DiscountEffectiveness

  function ColumnName(f: Feature): string
  {
    match f
    case PlatformEncoded => "platform_encoded"
    case CategoryEncoded => "category_encoded"
    case Price => "price"
    case DiscountPercent => "discount_percent"
    case Rating => "rating"
    case Stock => "stock"
    case PriceRange => "price_range"
    case RatingCategory => "rating_category"
    case StockStatus => "stock_status"
    case DiscountEffectiveness => "discount_effectiveness"
  }

  /** Feature order of the discount regressor. */
  const DiscountFeatureCols: seq<Feature> :=
    [PlatformEncoded, CategoryEncoded, Price, Rating, Stock, PriceRange, RatingCategory, StockStatus]

  /** Feature order of the platform classifier. */
  const PlatformFeatureCols: seq<Feature> :=
    [CategoryEncoded, Price, DiscountPercent, Rating, Stock, PriceRange, DiscountEffectiveness]

  function ColumnNames(cols: seq<Feature>): (names: seq<string>)
    ensures |names| == |cols|
    ensures forall i :: 0 <= i < |cols| ==> names[i] == ColumnName(cols[i])
  {
    if |cols| == 0 then [] else [ColumnName(cols[0])] + ColumnNames(cols[1..])
  }

  /** One product row after preprocessing: raw fields plus every derived column. */
  datatype EngineeredRow = EngineeredRow(
    platformEncoded: int,
    categoryEncoded: int,
    price: real,
    discountedPrice: real,
    discountPercent: real,
    rating: real,
    stock: int,
    priceRange: int,
    discountEffectiveness: real,
    highDiscount: int,
    ratingCategory: int,
    stockStatus: int)

  function Column(row: EngineeredRow, f: Feature): real
  {
    match f
    case PlatformEncoded => row.platformEncoded as real
    case CategoryEncoded => row.categoryEncoded as real
    case Price => row.price
    case DiscountPercent => row.discountPercent
    case Rating => row.rating
    case Stock => row.stock as real
    case PriceRange => row.priceRange as real
    case RatingCategory => row.ratingCategory as real
    case StockStatus => row.stockStatus as real
    case DiscountEffectiveness => row.discountEffectiveness
  }

  /** The row's values in the given column order. */
  function Select(row: EngineeredRow, cols: seq<Feature>): (v: seq<real>)
    ensures |v| == |cols|
    ensures forall i :: 0 <= i < |cols| ==> v[i] == Column(row, cols[i])
  {
    if |cols| == 0 then [] else [Column(row, cols[0])] + Select(row, cols[1..])
  }

  /** Column names are distinct, so a name list determines its feature order. */
  lemma ColumnNameInjective(f: Feature, g: Feature)
    ensures ColumnName(f) == ColumnName(g) ==> f == g
  {
  }
}

=== FILE: json.dfy ===
/** The shapes of JSON request members the handlers read. */
module Json {

  /** A string member: missing, `null`, or a string. */
  datatype Field = Absent | Null | Str(s: string)

  /** Python truthiness of a member read with `.get`: only a non-empty string is truthy. */
  predicate Truthy(f: Field)
  {
    f.Str? && |f.s| > 0
  }

  /** A numeric member after conversion to a number: missing, convertible, or
      one the conversion rejects. */
  datatype NumberField = NumAbsent | Numeric(v: real) | NotNumeric
}

=== FILE: label_encoding.dfy ===
/**
 * The categorical label encoder used for the `platform` and `category`
 * columns: fitting keeps the distinct labels in ascending code-point order,
 * and a label's code is its index in that sequence.
 */
module LabelEncoding {
  import opened Wrappers
  import opened Sequences

  /** Code-point lexicographic order on strings, the order Python sorts them in. */
  predicate Less(a: string, b: string)
  {
    if |a| == 0 then |b| > 0
    else if |b| == 0 then false
    else if a[0] != b[0] then a[0] < b[0]
    else Less(a[1..], b[1..])
  }

  lemma {:induction false} LessIrreflexive(a: string)
    ensures !Less(a, a)
  {
    if |a| > 0 {
      LessIrreflexive(a[1..]);
    }
  }

  lemma {:induction false} LessAsymmetric(a: string, b: string)
    ensures Less(a, b) ==> !Less(b, a)
  {
    if |a| > 0 && |b| > 0 && a[0] == b[0] {
      LessAsymmetric(a[1..], b[1..]);
    }
  }

  lemma {:induction false} LessTransitive(a: string, b: string, c: string)
    requires Less(a, b) && Less(b, c)
    ensures Less(a, c)
  {
    if |a| > 0 && |b| > 0 && |c| > 0 && a[0] == b[0] && b[0] == c[0] {
      LessTransitive(a[1..], b[1..], c[1..]);
    }
  }

  lemma {:induction false} LessTotal(a: string, b: string)
    requires a != b
    ensures Less(a, b) || Less(b, a)
  {
    if |a| > 0 && |b| > 0 && a[0] == b[0] {
      assert a == [a[0]] + a[1..];
      assert b == [b[0]] + b[1..];
      LessTotal(a[1..], b[1..]);
    }
  }

  /** Strictly ascending, hence free of duplicates. */
  predicate StrictlySorted(xs: seq<string>)
  {
    forall i, j :: 0 <= i < j < |xs| ==> Less(xs[i], xs[j])
  }

  lemma SortedNoDuplicates(xs: seq<string>, i: int, j: int)
    requires StrictlySorted(xs)
    requires 0 <= i < |xs| && 0 <= j < |xs| && i != j
    ensures xs[i] != xs[j]
  {
    if i < j { LessIrreflexive(xs[i]); } else { LessIrreflexive(xs[j]); }
  }

  /** Inserts `x` at its place in a strictly sorted sequence, unless already there. */
  function Insert(xs: seq<string>, x: string): (r: seq<string>)
    requires StrictlySorted(xs)
    ensures StrictlySorted(r)
    ensures forall y :: y in r <==> y in xs || y == x
  {
    if |xs| == 0 then [x]
    else if x == xs[0] then xs
    else if Less(x, xs[0]) then
      assert forall j :: 0 < j < |xs| ==> Less(x, xs[j]) by {
        forall j | 0 < j < |xs| { LessTransitive(x, xs[0], xs[j]); }
      }
      [x] + xs
    else
      var tail := Insert(xs[1..], x);
      LessTotal(x, xs[0]);
      assert forall y :: y in tail ==> Less(xs[0], y) by {
        forall y | y in tail ensures Less(xs[0], y) {
          if y != x {
            var k :| 0 <= k < |xs[1..]| && xs[1..][k] == y;
            assert xs[k + 1] == y;
          }
        }
      }
      var r := [xs[0]] + tail;
      assert forall i, j :: 0 <= i < j < |r| ==> Less(r[i], r[j]) by {
        forall i, j | 0 <= i < j < |r| ensures Less(r[i], r[j]) {
          if i == 0 { assert r[j] in tail; } else { assert r[i] == tail[i - 1] && r[j] == tail[j - 1]; }
        }
      }
      assert forall y :: y in xs <==> y == xs[0] || y in xs[1..] by {
        assert xs == [xs[0]] + xs[1..];
      }
      r
  }

  /** The distinct labels of a column, ascending: the fitted encoder's classes. */
  function SortedDistinct(labels: seq<string>): (classes: seq<string>)
    ensures StrictlySorted(classes)
    ensures forall y :: y in classes <==> y in labels
  {
    if |labels| == 0 then []
    else
      var init := labels[..|labels| - 1];
      assert labels == init + [labels[|labels| - 1]];
      Insert(SortedDistinct(init), labels[|labels| - 1])
  }

  /** Two strictly sorted sequences holding the same labels are equal. */
  lemma {:induction false} SortedUnique(xs: seq<string>, ys: seq<string>)
    requires StrictlySorted(xs) && StrictlySorted(ys)
    requires forall y :: y in xs <==> y in ys
    ensures xs == ys
  {
    if |xs| > 0 { assert xs[0] in ys; }
    if |ys| > 0 { assert ys[0] in xs; }
    if |xs| == 0 || |ys| == 0 {
    } else {
      if xs[0] != ys[0] {
        LessTotal(xs[0], ys[0]);
        assert xs[0] in ys;
        assert ys[0] in xs;
        var k :| 0 <= k < |ys| && ys[k] == xs[0];
        var m :| 0 <= m < |xs| && xs[m] == ys[0];
        LessIrreflexive(xs[0]);
        LessIrreflexive(ys[0]);
        LessAsymmetric(xs[0], ys[0]);
        assert false;
      }
      forall y
        ensures y in xs[1..] <==> y in ys[1..]
      {
        assert xs == [xs[0]] + xs[1..];
        assert ys == [ys[0]] + ys[1..];
        if y in xs[1..] {
          var k :| 0 <= k < |xs[1..]| && xs[1..][k] == y;
          SortedNoDuplicates(xs, 0, k + 1);
          assert y in ys && y != ys[0];
        }
        if y in ys[1..] {
          var k :| 0 <= k < |ys[1..]| && ys[1..][k] == y;
          SortedNoDuplicates(ys, 0, k + 1);
          assert y in xs && y != xs[0];
        }
      }
      SortedUnique(xs[1..], ys[1..]);
      assert xs == [xs[0]] + xs[1..];
      assert ys == [ys[0]] + ys[1..];
    }
  }

  /** A fitted encoder; `classes[c]` is the label with code `c`. */
  datatype Encoder = Encoder(classes: seq<string>)

  predicate Valid(e: Encoder)
  {
    StrictlySorted(e.classes)
  }

  /** Fitting on a column of labels (fit / fit_transform). */
  function Fit(labels: seq<string>): (e: Encoder)
    ensures Valid(e)
    ensures forall l :: l in e.classes <==> l in labels
  {
    Encoder(SortedDistinct(labels))
  }

  /** transform: the code of a label, or nothing for a label not seen at fit time. */
  function Encode(e: Encoder, l: string): (r: Option<nat>)
    ensures r.None? <==> l !in e.classes
    ensures r.Some? ==> r.value < |e.classes| && e.classes[r.value] == l
  {
    IndexOf(e.classes, l)
  }

  /** inverse_transform: the label of a code, or nothing for a code out of range. */
  function Decode(e: Encoder, code: int): (r: Option<string>)
    ensures r.Some? <==> 0 <= code < |e.classes|
    ensures r.Some? ==> r.value in e.classes
  {
    if 0 <= code < |e.classes| then Some(e.classes[code]) else None
  }

  /** Codes follow the sorted label order: a label seen at fit time gets a code,
      and a smaller label gets a smaller code. */
  lemma FitCodesOrdered(labels: seq<string>, l: string, m: string)
    ensures Encode(Fit(labels), l).Some? <==> l in labels
    ensures l in labels && m in labels ==>
      (Less(m, l) <==> Encode(Fit(labels), m).value < Encode(Fit(labels), l).value)
  {
    var e := Fit(labels);
    if l in labels && m in labels {
      var i, j := Encode(e, m).value, Encode(e, l).value;
      if i < j {
        assert Less(m, l);
      } else if i == j {
        LessIrreflexive(l);
      } else {
        assert Less(l, m);
        LessAsymmetric(l, m);
      }
    }
  }

  /** Decoding an encoded label gives it back. */
  lemma DecodeEncode(e: Encoder, l: string)
    requires l in e.classes
    ensures Encode(e, l).Some? && Decode(e, Encode(e, l).value) == Some(l)
  {
  }

  /** Encoding a decoded code gives it back, since a fitted encoder has no duplicates. */
  lemma EncodeDecode(e: Encoder, code: int)
    requires Valid(e)
    requires 0 <= code < |e.classes|
    ensures Decode(e, code).Some? && Encode(e, Decode(e, code).value) == Some(code)
  {
    var c := Encode(e, e.classes[code]).value;
    if c != code { SortedNoDuplicates(e.classes, c, code); }
  }

  /** The labels of a duplicate-free sequence are as many as its positions. */
  lemma {:induction false} DistinctCount(xs: seq<string>)
    requires forall i, j :: 0 <= i < j < |xs| ==> xs[i] != xs[j]
    ensures |set x | x in xs| == |xs|
  {
    if |xs| > 0 {
      var init := xs[..|xs| - 1];
      var last := xs[|xs| - 1];
      DistinctCount(init);
      assert (set x | x in xs) == (set x | x in init) + {last} by {
        assert xs == init + [last];
      }
      assert last !in (set x | x in init);
    }
  }

  /** The codes are dense: a fit over k distinct labels uses exactly the codes 0..k-1. */
  lemma CodesDense(labels: seq<string>)
    ensures |Fit(labels).classes| == |set l | l in labels|
    ensures forall code :: 0 <= code < |Fit(labels).classes| ==> Decode(Fit(labels), code).value in labels
  {
    var xs := Fit(labels).classes;
    forall i, j | 0 <= i < j < |xs| ensures xs[i] != xs[j] { SortedNoDuplicates(xs, i, j); }
    DistinctCount(xs);
    assert (set l | l in labels) == (set x | x in xs);
  }
}

=== FILE: pandas_cut.dfy ===
/**
 * Right-closed binning of a number against a table of edges, as `pd.cut`
 * does with its defaults: with edges e0 < e1 < ... < en, a value in
 * (e_i, e_{i+1}] gets label i, and any other value gets no label (NaN).
 */
module PandasCut {
  import opened Wrappers

  predicate Increasing(edges: seq<real>)
  {
    forall i, j :: 0 <= i < j < |edges| ==> edges[i] < edges[j]
  }

  /** A usable edge table: at least one bin, edges strictly increasing. */
  predicate WellFormed(edges: seq<real>)
  {
    |edges| >= 2 && Increasing(edges)
  }

  /** Scans the bins from index `i` on; the value lies in no earlier bin. */
  function CutFrom(edges: seq<real>, x: real, i: nat): (r: Option<nat>)
    requires WellFormed(edges) && i < |edges|
    requires x > edges[i] || i == 0
    ensures r.Some? <==> edges[0] < x <= edges[|edges| - 1]
    ensures r.Some? ==> i <= r.value < |edges| - 1 && edges[r.value] < x <= edges[r.value + 1]
    decreases |edges| - i
  {
    if i + 1 >= |edges| then None
    else if edges[i] < x <= edges[i + 1] then Some(i)
    else if x <= edges[i] then None
    else CutFrom(edges, x, i + 1)
  }

  /** The label of `x`, or None where pandas yields NaN. */
  function Cut(edges: seq<real>, x: real): (r: Option<nat>)
    requires WellFormed(edges)
    ensures r.Some? <==> edges[0] < x <= edges[|edges| - 1]
    ensures r.Some? ==> r.value < |edges| - 1 && edges[r.value] < x <= edges[r.value + 1]
  {
    CutFrom(edges, x, 0)
  }

  /** Bin labels grow with the value: cutting is monotone where it is defined. */
  lemma CutMonotone(edges: seq<real>, x: real, y: real)
    requires WellFormed(edges)
    requires x <= y && Cut(edges, x).Some? && Cut(edges, y).Some?
    ensures Cut(edges, x).value <= Cut(edges, y).value
  {
    var i, j := Cut(edges, x).value, Cut(edges, y).value;
    assert edges[i] < x <= y <= edges[j + 1];
  }
}

=== FILE: sequences.dfy ===
/** Searching a sequence, shared by the label encoder and the email check. */
module Sequences {
  import opened Wrappers

  /** Position of the first occurrence of `x` in `xs`, if any. */
  function IndexOf<T(==)>(xs: seq<T>, x: T): (r: Option<nat>)
    ensures r.None? <==> x !in xs
    ensures r.None? ==> forall k :: 0 <= k < |xs| ==> xs[k] != x
    ensures r.Some? ==> r.value < |xs| && xs[r.value] == x
    ensures r.Some? ==> forall k :: 0 <= k < r.value ==> xs[k] != x
  {
    if |xs| == 0 then None
    else if xs[0] == x then Some(0)
    else match IndexOf(xs[1..], x)
      case None => None
      case Some(k) => Some(k + 1)
  }
}

=== FILE: serving.dfy ===
/**
 * The prediction endpoint: request gating, feature derivation, the two-stage
 * chain (platform classification feeding discount regression), clamping,
 * price arithmetic and the rule-based advice list.
 */
module Serving {
  import opened Wrappers
  import opened Json
  import opened LabelEncoding
  import opened Artifacts

  datatype Query = Query(category: Field, budget: NumberField, platform: Field)

  /** `body` is None when the request carries no JSON object. */
  datatype Request = Request(loggedIn: bool, body: Option<Query>)

  datatype PredictError =
    | NotAuthenticated
    | ModelsNotLoaded
    | MalformedBody
    | BudgetNotNumeric
    | CategoryRequired
    | EncoderMissing(key: string)
    | UnseenLabel(value: string)
    | UnseenCode(code: int)
    | EmptyProbabilities
    | MetadataKeyMissing

  /** HTTP status of each error response. */
  function StatusOf(e: PredictError): int
  {
    match e
    case NotAuthenticated => 401
    case ModelsNotLoaded => 500
    case _ => 400
  }

  const DefaultCategory := "Electronics"
  const DefaultBudget: real := 5000.0

  /** The fixed context assumed for every query. */
  const RatingPreference: real := 4.0
  const StockEstimate: int := 200
  const StockStatus: int := 2

  /** Placeholders fed to the classifier in place of the unknown discount. */
  const DiscountEstimate: real := 15.0
  const EffectivenessEstimate: real := 0.15

  const FallbackModelName := "ML Model"

  /** The budget as a number: 5000 when the request omits it, an error when it is not numeric. */
  function BudgetOf(f: NumberField): (r: Result<real, PredictError>)
    ensures r.Failure? <==> f.NotNumeric?
    ensures r.Success? ==> r.value == (if f.Numeric? then f.v else DefaultBudget)
  {
    match f
    case NumAbsent => Success(DefaultBudget)
    case Numeric(v) => Success(v)
    case NotNumeric => Failure(BudgetNotNumeric)
  }

  /** The category: "Electronics" when the request omits it, an error when it is null or empty. */
  function CategoryOf(f: Field): (r: Result<string, PredictError>)
    ensures r.Failure? <==> f.Null? || f == Str([])
    ensures r.Success? ==> |r.value| > 0
    ensures r.Success? && f.Str? ==> r.value == f.s
  {
    match f
    case Absent => Success(DefaultCategory)
    case Null => Failure(CategoryRequired)
    case Str(c) => if |c| == 0 then Failure(CategoryRequired) else Success(c)
  }

  /** A platform counts as supplied only when it is a non-empty string. */
  function PreferredPlatform(f: Field): (r: Option<string>)
    ensures r.Some? <==> Truthy(f)
    ensures r.Some? ==> r.value == f.s
  {
    if Truthy(f) then Some(f.s) else None
  }

  const PriceThresholds: seq<real> := [1000.0, 5000.0, 15000.0, 30000.0]

  /** Serving's price range: left-closed thresholds, no upper or lower limit. */
  function PriceRange(budget: real): (r: int)
    ensures 0 <= r <= 4
    ensures r > 0 ==> PriceThresholds[r - 1] <= budget
    ensures r < 4 ==> budget < PriceThresholds[r]
  {
    if budget < 1000.0 then 0
    else if budget < 5000.0 then 1
    else if budget < 15000.0 then 2
    else if budget < 30000.0 then 3
    else 4
  }

  /** A larger budget never falls in a lower price range. */
  lemma PriceRangeMonotone(a: real, b: real)
    requires a <= b
    ensures PriceRange(a) <= PriceRange(b)
  {
  }

  const RatingThresholds: seq<real> := [3.5, 4.0, 4.5]

  /** Serving's rating table: right-closed thresholds, no lower limit. */
  function RatingCategory(rating: real): (r: int)
    ensures 0 <= r <= 3
    ensures r > 0 ==> RatingThresholds[r - 1] < rating
    ensures r < 3 ==> rating <= RatingThresholds[r]
  {
    if rating <= 3.5 then 0
    else if rating <= 4.0 then 1
    else if rating <= 4.5 then 2
    else 3
  }

  /** The stored encoder for a column, failing like a missing dictionary key. */
  function EncoderFor(s: Snapshot, key: string): (r: Result<Encoder, PredictError>)
    requires s.labelEncoders.Some?
    ensures r.Success? <==> key in s.labelEncoders.value
    ensures r.Success? ==> r.value == s.labelEncoders.value[key]
  {
    if key in s.labelEncoders.value then Success(s.labelEncoders.value[key])
    else Failure(EncoderMissing(key))
  }

  /** The encoder's code for one label; an unseen label is an error. */
  function Transform(e: Encoder, l: string): (r: Result<int, PredictError>)
    ensures r.Failure? <==> l !in e.classes
    ensures r.Failure? ==> r.error == UnseenLabel(l)
    ensures r.Success? ==> Decode(e, r.value) == Some(l)
  {
    match Encode(e, l)
    case None => Failure(UnseenLabel(l))
    case Some(c) => Success(c)
  }

  /** The label an encoder gives one code; a code outside its classes is an error. */
  function InverseTransform(e: Encoder, code: int): (r: Result<string, PredictError>)
    ensures r.Failure? <==> !(0 <= code < |e.classes|)
    ensures r.Success? ==> Decode(e, code) == Some(r.value)
  {
    match Decode(e, code)
    case None => Failure(UnseenCode(code))
    case Some(l) => Success(l)
  }

  /** The largest entry of a non-empty vector (`ndarray.max`). */
  function MaxOf(xs: seq<real>): (m: real)
    requires |xs| > 0
    ensures m in xs
    ensures forall i :: 0 <= i < |xs| ==> xs[i] <= m
  {
    if |xs| == 1 then xs[0]
    else
      var rest := MaxOf(xs[1..]);
      assert forall i :: 1 <= i < |xs| ==> xs[i] == xs[1..][i - 1];
      if xs[0] >= rest then xs[0] else rest
  }

  predicate IsProbabilityVector(xs: seq<real>)
  {
    forall i :: 0 <= i < |xs| ==> 0.0 <= xs[i] <= 1.0
  }

  /** The classifier's input, in the platform feature order. */
  function PlatformVector(categoryCode: int, budget: real, priceRange: int): (v: seq<real>)
    ensures |v| == 7
  {
    [categoryCode as real, budget, DiscountEstimate, RatingPreference, StockEstimate as real,
     priceRange as real, EffectivenessEstimate]
  }

  /** The regressor's input, in the discount feature order, with the platform
      code chained in from the platform stage. */
  function DiscountVector(platformCode: int, categoryCode: int, budget: real, priceRange: int, ratingCategory: int): (v: seq<real>)
    ensures |v| == 8
  {
    [platformCode as real, categoryCode as real, budget, RatingPreference, StockEstimate as real,
     priceRange as real, ratingCategory as real, StockStatus as real]
  }

  datatype PlatformChoice = PlatformChoice(code: int, name: string, confidence: real)

  /** Platform stage: echo a supplied platform, or ask the classifier. */
  function ChoosePlatform(s: Snapshot, preferred: Option<string>, categoryCode: int, budget: real, priceRange: int)
    : (r: Result<PlatformChoice, PredictError>)
    requires ModelsLoaded(s)
    ensures r.Success? ==>
      PlatformKey in s.labelEncoders.value && Decode(s.labelEncoders.value[PlatformKey], r.value.code) == Some(r.value.name)
    ensures preferred.Some? && r.Success? ==> r.value.name == preferred.value && r.value.confidence == 100.0
    ensures preferred.Some? ==> (r.Success? <==>
      PlatformKey in s.labelEncoders.value && preferred.value in s.labelEncoders.value[PlatformKey].classes)
    ensures preferred.None? ==>
      var x := s.platformScaler.value.transform(PlatformVector(categoryCode, budget, priceRange));
      (r.Success? <==> && PlatformKey in s.labelEncoders.value
                       && 0 <= s.platformModel.value.predict(x) < |s.labelEncoders.value[PlatformKey].classes|
                       && |s.platformModel.value.proba(x)| > 0)
    ensures preferred.None? && r.Success? ==>
      var x := s.platformScaler.value.transform(PlatformVector(categoryCode, budget, priceRange));
      var proba := s.platformModel.value.proba(x);
      && r.value.code == s.platformModel.value.predict(x)
      && |proba| > 0
      && (forall i :: 0 <= i < |proba| ==> 100.0 * proba[i] <= r.value.confidence)
      && (exists i :: 0 <= i < |proba| && r.value.confidence == 100.0 * proba[i])
      && (IsProbabilityVector(proba) ==> 0.0 <= r.value.confidence <= 100.0)
  {
    match preferred
    case Some(p) =>
      var enc :- EncoderFor(s, PlatformKey);
      var code :- Transform(enc, p);
      Success(PlatformChoice(code, p, 100.0))
    case None =>
      var x := s.platformScaler.value.transform(PlatformVector(categoryCode, budget, priceRange));
      var code := s.platformModel.value.predict(x);
      var proba := s.platformModel.value.proba(x);
      var enc :- EncoderFor(s, PlatformKey);
      var name :- InverseTransform(enc, code);
      if |proba| == 0 then Failure(EmptyProbabilities)
      else
        var m := MaxOf(proba);
        Success(PlatformChoice(code, name, m * 100.0))
  }

  /** The predicted discount held to the credible band from 0 to 50 percent. */
  function Clamp(d: real): (r: real)
    ensures 0.0 <= r <= 50.0
    ensures 0.0 <= d <= 50.0 ==> r == d
    ensures d < 0.0 ==> r == 0.0
    ensures d > 50.0 ==> r == 50.0
  {
    if 50.0 < d then 50.0 else if d < 0.0 then 0.0 else d
  }

  /** The price after a percentage discount. */
  function DiscountedPrice(budget: real, discount: real): real
  {
    budget * (1.0 - discount / 100.0)
  }

  /** The savings are the discount's share of the budget, and a credible discount
      keeps at least half of it. */
  lemma PriceArithmetic(budget: real, discount: real)
    ensures budget - DiscountedPrice(budget, discount) == budget * discount / 100.0
    ensures budget >= 0.0 && 0.0 <= discount <= 50.0 ==>
      budget / 2.0 <= DiscountedPrice(budget, discount) <= budget
  {
    if budget >= 0.0 && 0.0 <= discount <= 50.0 {
      assert budget * (discount / 100.0) <= budget * 0.5;
    }
  }

  /** One line of advice; interpolated text is represented by its parameters. */
  datatype Advice =
    | ExcellentDeal(platform: string, category: string)
    | SaveUpTo(discount: real)
    | GoodDeal(platform: string, category: string)
    | ExpectedSavings(discount: real)
    | ModerateDiscount(platform: string, category: string)
    | WaitForSales
    | HighValuePurchase
    | ComparePrices
    | CheckRatings

  /** The rule-based advice list. */
  function Recommendations(discount: real, platform: string, category: string, budget: real): (recs: seq<Advice>)
    ensures |recs| == if budget > 10000.0 then 5 else 4
    ensures recs[|recs| - 2..] == [ComparePrices, CheckRatings]
    ensures HighValuePurchase in recs <==> budget > 10000.0
    ensures recs[0].ExcellentDeal? <==> discount > 30.0
    ensures recs[0].GoodDeal? <==> 20.0 < discount <= 30.0
    ensures recs[0].ModerateDiscount? <==> discount <= 20.0
    ensures recs[..2] in {
      [ExcellentDeal(platform, category), SaveUpTo(discount)],
      [GoodDeal(platform, category), ExpectedSavings(discount)],
      [ModerateDiscount(platform, category), WaitForSales]}
  {
    var tier :=
      if discount > 30.0 then [ExcellentDeal(platform, category), SaveUpTo(discount)]
      else if discount > 20.0 then [GoodDeal(platform, category), ExpectedSavings(discount)]
      else [ModerateDiscount(platform, category), WaitForSales];
    var highValue := if budget > 10000.0 then [HighValuePurchase] else [];
    var recs := tier + highValue + [ComparePrices, CheckRatings];
    assert recs[..2] == tier;
    recs
  }

  /** The model name reported to the client: the stored discount model name, or
      "ML Model" when no metadata was loaded; metadata without the name is an error. */
  function ModelUsed(s: Snapshot): (r: Result<string, PredictError>)
    ensures !NonEmptyMap(s.metadata) ==> r == Success(FallbackModelName)
    ensures NonEmptyMap(s.metadata) ==>
      (r.Success? <==> DiscountModelNameKey in s.metadata.value)
    ensures NonEmptyMap(s.metadata) && r.Success? ==> r.value == s.metadata.value[DiscountModelNameKey]
  {
    if NonEmptyMap(s.metadata) then
      if DiscountModelNameKey in s.metadata.value then Success(s.metadata.value[DiscountModelNameKey])
      else Failure(MetadataKeyMissing)
    else Success(FallbackModelName)
  }

  /** The success body, before rounding. */
  datatype Prediction = Prediction(
    predictedDiscount: real,
    bestPlatform: string,
    platformConfidence: real,
    estimatedPrice: real,
    discountedPrice: real,
    savings: real,
    category: string,
    recommendations: seq<Advice>,
    modelUsed: string)

  /** The answer is the chain's output: the platform stage runs on the request's
      category code and budget, its name and confidence are reported, and the
      regressor sees the discount vector built from its platform code. */
  ghost predicate ChainedAnswer(s: Snapshot, q: Query, p: Prediction)
    requires ModelsLoaded(s)
  {
    && CategoryKey in s.labelEncoders.value
    && Encode(s.labelEncoders.value[CategoryKey], p.category).Some?
    && var cc := Encode(s.labelEncoders.value[CategoryKey], p.category).value;
       var choice := ChoosePlatform(s, PreferredPlatform(q.platform), cc, p.estimatedPrice, PriceRange(p.estimatedPrice));
       && choice.Success?
       && choice.value.name == p.bestPlatform
       && choice.value.confidence == p.platformConfidence
       && p.predictedDiscount == Clamp(s.discountModel.value.predict(s.discountScaler.value.transform(
            DiscountVector(choice.value.code, cc, p.estimatedPrice, PriceRange(p.estimatedPrice), RatingCategory(RatingPreference)))))
  }

  /** The body of the request handler's `try` block: every failure in it is one 400 response. */
  function Infer(s: Snapshot, body: Option<Query>): (r: Result<Prediction, PredictError>)
    requires ModelsLoaded(s)
    ensures r.Failure? ==> StatusOf(r.error) == 400
    ensures r.Success? ==> 0.0 <= r.value.predictedDiscount <= 50.0
    ensures r.Success? ==> body.Some? && BudgetOf(body.value.budget) == Success(r.value.estimatedPrice)
    ensures r.Success? ==> body.Some? && CategoryOf(body.value.category) == Success(r.value.category)
    ensures r.Success? ==> r.value.savings == r.value.estimatedPrice * r.value.predictedDiscount / 100.0
    ensures r.Success? ==> r.value.discountedPrice == DiscountedPrice(r.value.estimatedPrice, r.value.predictedDiscount)
    ensures r.Success? ==> r.value.discountedPrice + r.value.savings == r.value.estimatedPrice
    ensures r.Success? ==> 4 <= |r.value.recommendations| <= 5
    ensures r.Success? ==> body.Some? && ChainedAnswer(s, body.value, r.value)
    ensures r.Success? ==> ModelUsed(s) == Success(r.value.modelUsed)
  {
    var q :- if body.Some? then Success(body.value) else Failure(MalformedBody);
    var budget :- BudgetOf(q.budget);
    var category :- CategoryOf(q.category);
    var categoryEncoder :- EncoderFor(s, CategoryKey);
    var categoryCode :- Transform(categoryEncoder, category);
    var priceRange := PriceRange(budget);
    var ratingCategory := RatingCategory(RatingPreference);
    var choice :- ChoosePlatform(s, PreferredPlatform(q.platform), categoryCode, budget, priceRange);
    var x := DiscountVector(choice.code, categoryCode, budget, priceRange, ratingCategory);
    var discount := Clamp(s.discountModel.value.predict(s.discountScaler.value.transform(x)));
    var discounted := DiscountedPrice(budget, discount);
    var savings := budget - discounted;
    var recommendations := Recommendations(discount, choice.name, category, budget);
    var modelUsed :- ModelUsed(s);
    Success(Prediction(discount, choice.name, choice.confidence, budget, discounted, savings,
                       category, recommendations, modelUsed))
  }

  /** The prediction endpoint: session first, then readiness, then the request. */
  function Predict(s: Snapshot, req: Request): (r: Result<Prediction, PredictError>)
    ensures !req.loggedIn ==> r == Failure(NotAuthenticated)
    ensures req.loggedIn && !ModelsLoaded(s) ==> r == Failure(ModelsNotLoaded)
    ensures r.Failure? && StatusOf(r.error) != 400 ==> !req.loggedIn || !ModelsLoaded(s)
    ensures r.Success? ==> 0.0 <= r.value.predictedDiscount <= 50.0
    ensures r.Success? ==> req.body.Some? && BudgetOf(req.body.value.budget) == Success(r.value.estimatedPrice)
    ensures r.Success? ==> req.body.Some? && CategoryOf(req.body.value.category) == Success(r.value.category)
    ensures r.Success? ==> r.value.discountedPrice == DiscountedPrice(r.value.estimatedPrice, r.value.predictedDiscount)
    ensures r.Success? ==> r.value.discountedPrice + r.value.savings == r.value.estimatedPrice
    ensures r.Success? ==> 4 <= |r.value.recommendations| <= 5
    ensures r.Success? ==> req.body.Some? && ModelsLoaded(s) && ChainedAnswer(s, req.body.value, r.value)
    ensures r.Success? ==> ModelUsed(s) == Success(r.value.modelUsed)
  {
    if !req.loggedIn then Failure(NotAuthenticated)
    else if !ModelsLoaded(s) then Failure(ModelsNotLoaded)
    else Infer(s, req.body)
  }

  /** When a request for a loaded snapshot is answered: every label it names or the
      classifier produces is known to the encoders, the classifier yields some
      probabilities, and the metadata, if any, names the model. */
  ghost predicate Answerable(s: Snapshot, q: Query)
    requires ModelsLoaded(s)
  {
    var encoders := s.labelEncoders.value;
    && BudgetOf(q.budget).Success?
    && CategoryOf(q.category).Success?
    && CategoryKey in encoders && PlatformKey in encoders
    && CategoryOf(q.category).value in encoders[CategoryKey].classes
    && (if q.platform.Str? && |q.platform.s| > 0 then q.platform.s in encoders[PlatformKey].classes
        else
          var budget := BudgetOf(q.budget).value;
          var code := Encode(encoders[CategoryKey], CategoryOf(q.category).value).value;
          var x := s.platformScaler.value.transform(PlatformVector(code, budget, PriceRange(budget)));
          && 0 <= s.platformModel.value.predict(x) < |encoders[PlatformKey].classes|
          && |s.platformModel.value.proba(x)| > 0)
    && (s.metadata.Some? && |s.metadata.value| > 0 ==> DiscountModelNameKey in s.metadata.value)
  }

  /** A request is answered with a prediction exactly when the user is logged in,
      the models are loaded, there is a JSON body and that body is answerable. */
  lemma PredictSucceedsIff(s: Snapshot, req: Request)
    ensures Predict(s, req).Success? <==>
      req.loggedIn && ModelsLoaded(s) && req.body.Some? && Answerable(s, req.body.value)
  {
    if req.loggedIn && ModelsLoaded(s) && req.body.Some? {
      var q := req.body.value;
      if BudgetOf(q.budget).Success? && CategoryOf(q.category).Success? && CategoryKey in s.labelEncoders.value {
        var budget := BudgetOf(q.budget).value;
        var category := CategoryOf(q.category).value;
        var ce := s.labelEncoders.value[CategoryKey];
        assert BudgetOf(q.budget) == Success(budget);
        assert CategoryOf(q.category) == Success(category);
        assert EncoderFor(s, CategoryKey) == Success(ce);
        if category in ce.classes {
          var cc := Transform(ce, category).value;
          assert Encode(ce, category) == Some(cc);
          var choice := ChoosePlatform(s, PreferredPlatform(q.platform), cc, budget, PriceRange(budget));
          assert Infer(s, Some(q)).Success? <==> choice.Success? && ModelUsed(s).Success?;
        }
      }
    }
  }

  /** The budget is converted before the category is checked, so a bad budget wins over a bad category. */
  lemma BudgetCheckedBeforeCategory(s: Snapshot, q: Query)
    requires q.budget.NotNumeric?
    ensures Predict(s, Request(true, Some(q))) ==
      if ModelsLoaded(s) then Failure(BudgetNotNumeric) else Failure(ModelsNotLoaded)
  {
  }

  /** A category the encoder never saw fails the request with no prediction. */
  lemma UnseenCategoryFails(s: Snapshot, q: Query, category: string)
    requires ModelsLoaded(s) && CategoryKey in s.labelEncoders.value
    requires !q.budget.NotNumeric?
    requires q.category == Str(category) && |category| > 0
    requires category !in s.labelEncoders.value[CategoryKey].classes
    ensures Predict(s, Request(true, Some(q))) == Failure(UnseenLabel(category))
  {
  }

  /** A supplied platform is echoed with confidence 100, an unseen one fails, and
      the classifier and its scaler play no part in the answer. */
  lemma SuppliedPlatformSkipsClassifier(s: Snapshot, q: Query, c: Classifier, sc: Scaler)
    requires ModelsLoaded(s) && Truthy(q.platform)
    ensures var r := Predict(s, Request(true, Some(q)));
      && (r.Success? ==> r.value.bestPlatform == q.platform.s && r.value.platformConfidence == 100.0)
      && r == Predict(s.(platformModel := Some(c), platformScaler := Some(sc)), Request(true, Some(q)))
  {
    var s' := s.(platformModel := Some(c), platformScaler := Some(sc));
    assert ModelsLoaded(s');
    var p := PreferredPlatform(q.platform);
    if BudgetOf(q.budget).Success? && CategoryOf(q.category).Success? && CategoryKey in s.labelEncoders.value {
      var budget := BudgetOf(q.budget).value;
      var ce := s.labelEncoders.value[CategoryKey];
      var cat := CategoryOf(q.category).value;
      if Transform(ce, cat).Success? {
        var cc := Transform(ce, cat).value;
        assert ChoosePlatform(s, p, cc, budget, PriceRange(budget)) == ChoosePlatform(s', p, cc, budget, PriceRange(budget));
      }
    }
  }

  /** An unseen supplied platform fails the request. */
  lemma UnseenPlatformFails(s: Snapshot, q: Query, category: string, platform: string)
    requires ModelsLoaded(s) && CategoryKey in s.labelEncoders.value && PlatformKey in s.labelEncoders.value
    requires !q.budget.NotNumeric?
    requires q.category == Str(category) && |category| > 0
    requires category in s.labelEncoders.value[CategoryKey].classes
    requires q.platform == Str(platform) && |platform| > 0
    requires platform !in s.labelEncoders.value[PlatformKey].classes
    ensures Predict(s, Request(true, Some(q))) == Failure(UnseenLabel(platform))
  {
    var budget := BudgetOf(q.budget).value;
    var ce := s.labelEncoders.value[CategoryKey];
    var cc := Transform(ce, category).value;
    var pe := s.labelEncoders.value[PlatformKey];
    assert BudgetOf(q.budget) == Success(budget);
    assert CategoryOf(q.category) == Success(category);
    assert EncoderFor(s, CategoryKey) == Success(ce);
    assert Transform(ce, category) == Success(cc);
    assert Transform(pe, platform) == Failure(UnseenLabel(platform));
    assert PreferredPlatform(q.platform) == Some(platform);
    assert ChoosePlatform(s, Some(platform), cc, budget, PriceRange(budget)) == Failure(UnseenLabel(platform));
    assert Infer(s, Some(q)) == Failure(UnseenLabel(platform));
  }

  /** Chaining: the regressor sees the discount vector built from the platform
      stage's code, which decodes to the reported platform; the clamped result is
      reported, and the advice is derived from that clamped, unrounded discount. */
  lemma PredictionIsChained(s: Snapshot, req: Request)
    requires Predict(s, req).Success?
    ensures ModelsLoaded(s) && CategoryKey in s.labelEncoders.value && PlatformKey in s.labelEncoders.value
    ensures var p := Predict(s, req).value;
      var categoryCode := Encode(s.labelEncoders.value[CategoryKey], p.category);
      && categoryCode.Some?
      && var choice := ChoosePlatform(s, PreferredPlatform(req.body.value.platform), categoryCode.value,
                                      p.estimatedPrice, PriceRange(p.estimatedPrice));
         && choice.Success?
         && p.recommendations == Recommendations(p.predictedDiscount, p.bestPlatform, p.category, p.estimatedPrice)
         && Decode(s.labelEncoders.value[PlatformKey], choice.value.code) == Some(p.bestPlatform)
         && p.predictedDiscount == Clamp(s.discountModel.value.predict(s.discountScaler.value.transform(
              DiscountVector(choice.value.code, categoryCode.value, p.estimatedPrice, PriceRange(p.estimatedPrice), 1))))
  {
    var q := req.body.value;
    var budget := BudgetOf(q.budget).value;
    var category := CategoryOf(q.category).value;
    var ce := s.labelEncoders.value[CategoryKey];
    var cc := Transform(ce, category).value;
    var choice := ChoosePlatform(s, PreferredPlatform(q.platform), cc, budget, PriceRange(budget)).value;
    assert Encode(ce, category) == Some(cc);
    assert Decode(s.labelEncoders.value[PlatformKey], choice.code) == Some(choice.name);
  }

  /** With no platform in the request, the reported platform is the decoded
      classifier prediction on the request's platform vector, and the confidence is
      100 times its largest class probability. */
  lemma ClassifierChoosesPlatform(s: Snapshot, req: Request)
    requires Predict(s, req).Success? && !Truthy(req.body.value.platform)
    ensures ModelsLoaded(s) && CategoryKey in s.labelEncoders.value && PlatformKey in s.labelEncoders.value
    ensures var p := Predict(s, req).value;
      && Encode(s.labelEncoders.value[CategoryKey], p.category).Some?
      && var cc := Encode(s.labelEncoders.value[CategoryKey], p.category).value;
         var x := s.platformScaler.value.transform(PlatformVector(cc, p.estimatedPrice, PriceRange(p.estimatedPrice)));
         var proba := s.platformModel.value.proba(x);
         && Decode(s.labelEncoders.value[PlatformKey], s.platformModel.value.predict(x)) == Some(p.bestPlatform)
         && |proba| > 0
         && (forall i :: 0 <= i < |proba| ==> 100.0 * proba[i] <= p.platformConfidence)
         && (exists i :: 0 <= i < |proba| && p.platformConfidence == 100.0 * proba[i])
  {
    var p := Predict(s, req).value;
    var cc := Encode(s.labelEncoders.value[CategoryKey], p.category).value;
    assert PreferredPlatform(req.body.value.platform).None?;
    var choice := ChoosePlatform(s, None, cc, p.estimatedPrice, PriceRange(p.estimatedPrice));
    assert choice.Success? && choice.value.name == p.bestPlatform && choice.value.confidence == p.platformConfidence;
  }

  /** The loaded feature-name lists are only checked for presence: any non-empty
      replacement leaves every answer unchanged, so nothing ties the vectors built
      here to the saved orders except the code itself. */
  lemma FeatureListsUnread(s: Snapshot, req: Request, d: seq<string>, p: seq<string>)
    requires NonEmptyList(s.discountFeatures) && NonEmptyList(s.platformFeatures)
    requires |d| > 0 && |p| > 0
    ensures Predict(s, req) == Predict(s.(discountFeatures := Some(d), platformFeatures := Some(p)), req)
  {
    var s' := s.(discountFeatures := Some(d), platformFeatures := Some(p));
    assert ModelsLoaded(s) == ModelsLoaded(s');
    if req.loggedIn && ModelsLoaded(s) && req.body.Some? {
      var q := req.body.value;
      if BudgetOf(q.budget).Success? && CategoryOf(q.category).Success? && CategoryKey in s.labelEncoders.value {
        var budget := BudgetOf(q.budget).value;
        var ce := s.labelEncoders.value[CategoryKey];
        var cat := CategoryOf(q.category).value;
        if Transform(ce, cat).Success? {
          var cc := Transform(ce, cat).value;
          var pp := PreferredPlatform(q.platform);
          assert ChoosePlatform(s, pp, cc, budget, PriceRange(budget)) == ChoosePlatform(s', pp, cc, budget, PriceRange(budget));
        }
      }
    }
  }
}

=== FILE: training.dfy ===
/**
 * The offline training run: preprocessing of the product rows, the discount
 * regressor chosen by held-out R², the platform classifier, and the snapshot
 * that is saved for serving. Fitting and scoring are opaque; the split's sizes
 * and the conditions under which it raises are not.
 */
module Training {
  import opened Wrappers
  import opened LabelEncoding
  import opened PandasCut
  import opened Features
  import opened Artifacts

  /** One row of the products table. */
  datatype ProductRecord = ProductRecord(
    category: string,
    platform: string,
    price: real,
    discountedPrice: real,
    discountPercent: real,
    rating: real,
    stock: int)

  const PriceEdges: seq<real> := [0.0, 1000.0, 5000.0, 15000.0, 30000.0, 100000.0]
  const RatingEdges: seq<real> := [0.0, 3.5, 4.0, 4.5, 5.0]
  const StockEdges: seq<real> := [0.0, 50.0, 150.0, 300.0, 500.0]

  lemma EdgesWellFormed()
    ensures WellFormed(PriceEdges) && WellFormed(RatingEdges) && WellFormed(StockEdges)
  {
  }

  /** `price_range`: (0,1000] -> 0, ..., (30000,100000] -> 4; None is NaN. */
  function PriceBin(price: real): (r: Option<nat>)
    ensures r.Some? <==> 0.0 < price <= 100000.0
    ensures r.Some? ==> r.value <= 4 && PriceEdges[r.value] < price <= PriceEdges[r.value + 1]
  {
    EdgesWellFormed();
    Cut(PriceEdges, price)
  }

  /** `rating_category`: (0,3.5] -> 0, (3.5,4] -> 1, (4,4.5] -> 2, (4.5,5] -> 3. */
  function RatingBin(rating: real): (r: Option<nat>)
    ensures r.Some? <==> 0.0 < rating <= 5.0
    ensures r.Some? ==> r.value <= 3 && RatingEdges[r.value] < rating <= RatingEdges[r.value + 1]
  {
    EdgesWellFormed();
    Cut(RatingEdges, rating)
  }

  /** `stock_status`: (0,50] -> 0, (50,150] -> 1, (150,300] -> 2, (300,500] -> 3. */
  function StockBin(stock: int): (r: Option<nat>)
    ensures r.Some? <==> 0 < stock <= 500
    ensures r.Some? ==> r.value <= 3 && StockEdges[r.value] < stock as real <= StockEdges[r.value + 1]
  {
    EdgesWellFormed();
    Cut(StockEdges, stock as real)
  }

  /** A row whose three binned columns survive the integer cast. */
  predicate Binnable(p: ProductRecord)
  {
    PriceBin(p.price).Some? && RatingBin(p.rating).Some? && StockBin(p.stock).Some?
  }

  function Platforms(data: seq<ProductRecord>): (labels: seq<string>)
    ensures |labels| == |data| && forall i :: 0 <= i < |data| ==> labels[i] == data[i].platform
  {
    seq(|data|, i requires 0 <= i < |data| => data[i].platform)
  }

  function Categories(data: seq<ProductRecord>): (labels: seq<string>)
    ensures |labels| == |data| && forall i :: 0 <= i < |data| ==> labels[i] == data[i].category
  {
    seq(|data|, i requires 0 <= i < |data| => data[i].category)
  }

  /** `discount_effectiveness`: the fraction of the price taken off. Computed only
      after the price column was binned, which forces a positive price. */
  function Effectiveness(price: real, discountedPrice: real): (e: real)
    requires price > 0.0
    ensures e * price == price - discountedPrice
    ensures 0.0 <= discountedPrice <= price ==> 0.0 <= e <= 1.0
  {
    (price - discountedPrice) / price
  }

  /** The engineered columns of one binnable row. */
  function Engineer(platforms: Encoder, categories: Encoder, p: ProductRecord): (row: EngineeredRow)
    requires Binnable(p)
    requires p.platform in platforms.classes && p.category in categories.classes
    ensures Decode(platforms, row.platformEncoded) == Some(p.platform)
    ensures Decode(categories, row.categoryEncoded) == Some(p.category)
    ensures row.price == p.price && row.rating == p.rating && row.stock == p.stock
    ensures row.discountPercent == p.discountPercent && row.discountedPrice == p.discountedPrice
    ensures PriceBin(p.price).value == row.priceRange
    ensures RatingBin(p.rating).value == row.ratingCategory
    ensures StockBin(p.stock).value == row.stockStatus
    ensures row.price > 0.0 && row.discountEffectiveness == Effectiveness(row.price, row.discountedPrice)
    ensures row.highDiscount == (if p.discountPercent > 20.0 then 1 else 0)
  {
    EngineeredRow(
      platformEncoded := Encode(platforms, p.platform).value,
      categoryEncoded := Encode(categories, p.category).value,
      price := p.price,
      discountedPrice := p.discountedPrice,
      discountPercent := p.discountPercent,
      rating := p.rating,
      stock := p.stock,
      priceRange := PriceBin(p.price).value,
      discountEffectiveness := Effectiveness(p.price, p.discountedPrice),
      highDiscount := if p.discountPercent > 20.0 then 1 else 0,
      ratingCategory := RatingBin(p.rating).value,
      stockStatus := StockBin(p.stock).value)
  }

  /** Which binned column failed its integer cast first. */
  datatype PreprocessError = PriceOutsideBins | RatingOutsideBins | StockOutsideBins

  datatype Prepared = Prepared(rows: seq<EngineeredRow>, platformEncoder: Encoder, categoryEncoder: Encoder)

  /** Every training row's labels are known to the encoders fitted on the data. */
  lemma LabelsFitted(data: seq<ProductRecord>, i: int)
    requires 0 <= i < |data|
    ensures data[i].platform in Fit(Platforms(data)).classes
    ensures data[i].category in Fit(Categories(data)).classes
  {
    assert Platforms(data)[i] == data[i].platform;
    assert Categories(data)[i] == data[i].category;
  }

  function EngineerAll(pe: Encoder, ce: Encoder, data: seq<ProductRecord>): (rows: seq<EngineeredRow>)
    requires forall i :: 0 <= i < |data| ==> Binnable(data[i])
    requires forall i :: 0 <= i < |data| ==> data[i].platform in pe.classes && data[i].category in ce.classes
    ensures |rows| == |data| && forall i :: 0 <= i < |data| ==> rows[i] == Engineer(pe, ce, data[i])
  {
    seq(|data|, i requires 0 <= i < |data| => Engineer(pe, ce, data[i]))
  }

  /** The whole preprocessing step. Columns are binned one after another, so a
      price failure anywhere wins over a rating failure, and a rating failure over a stock failure. */
  function Preprocess(data: seq<ProductRecord>): (r: Result<Prepared, PreprocessError>)
    ensures r.Success? <==> forall i :: 0 <= i < |data| ==> Binnable(data[i])
    ensures r == Failure(PriceOutsideBins) <==> exists i :: 0 <= i < |data| && PriceBin(data[i].price).None?
    ensures r == Failure(RatingOutsideBins) <==>
      && (forall i :: 0 <= i < |data| ==> PriceBin(data[i].price).Some?)
      && (exists i :: 0 <= i < |data| && RatingBin(data[i].rating).None?)
    ensures r == Failure(StockOutsideBins) <==>
      && (forall i :: 0 <= i < |data| ==> PriceBin(data[i].price).Some? && RatingBin(data[i].rating).Some?)
      && (exists i :: 0 <= i < |data| && StockBin(data[i].stock).None?)
    ensures r.Success? ==> r.value.platformEncoder == Fit(Platforms(data))
    ensures r.Success? ==> r.value.categoryEncoder == Fit(Categories(data))
    ensures r.Success? ==> |r.value.rows| == |data|
    ensures r.Success? ==> forall i :: 0 <= i < |data| ==>
      r.value.rows[i] == Engineer(r.value.platformEncoder, r.value.categoryEncoder, data[i])
  {
    var pe := Fit(Platforms(data));
    var ce := Fit(Categories(data));
    if exists i | 0 <= i < |data| :: PriceBin(data[i].price).None? then Failure(PriceOutsideBins)
    else if exists i | 0 <= i < |data| :: RatingBin(data[i].rating).None? then Failure(RatingOutsideBins)
    else if exists i | 0 <= i < |data| :: StockBin(data[i].stock).None? then Failure(StockOutsideBins)
    else
      assert forall i :: 0 <= i < |data| ==> data[i].platform in pe.classes && data[i].category in ce.classes by {
        forall i | 0 <= i < |data|
          ensures data[i].platform in pe.classes && data[i].category in ce.classes
        {
          LabelsFitted(data, i);
        }
      }
      Success(Prepared(EngineerAll(pe, ce, data), pe, ce))
  }

  /** Each row's values in the given feature order. */
  function Matrix(rows: seq<EngineeredRow>, cols: seq<Feature>): (x: seq<seq<real>>)
    ensures |x| == |rows| && forall i :: 0 <= i < |rows| ==> x[i] == Select(rows[i], cols)
  {
    seq(|rows|, i requires 0 <= i < |rows| => Select(rows[i], cols))
  }


  /** Holding out a fifth of `n` rows for testing keeps ceil(0.2 n) of them
      (for a whole row count the rounded float product is the exact one). */
  function TestSize(n: nat): nat
  {
    (n + 4) / 5
  }

  /** The rows left to fit on. */
  function TrainSize(n: nat): int
  {
    n - TestSize(n)
  }

  /** The held-out share is the ceiling of a fifth; nothing is left to fit on
      only for a single row, and R² is defined only from six rows on. */
  lemma SplitSizes(n: nat)
    ensures n <= 5 * TestSize(n) < n + 5
    ensures TrainSize(n) >= 0
    ensures TrainSize(n) > 0 <==> n >= 2
    ensures TestSize(n) >= 2 <==> n >= 6
  {
  }

  /** How many times `v` occurs in `y`. */
  function Count<T(==)>(y: seq<T>, v: T): nat
  {
    |set i | 0 <= i < |y| && y[i] == v|
  }

  /** The number of distinct values in `y`, counted at their first occurrences. */
  function ClassCount<T(==)>(y: seq<T>): nat
  {
    |set i | 0 <= i < |y| && (forall j :: 0 <= j < i ==> y[j] != y[i])|
  }

  /** The stratified split raises unless some row is left to fit on, every class
      occurs at least twice, and each side has room for one row of every class. */
  predicate StratifiedFeasible<T(==)>(y: seq<T>)
  {
    && TrainSize(|y|) > 0
    && (forall i :: 0 <= i < |y| ==> Count(y, y[i]) >= 2)
    && TrainSize(|y|) >= ClassCount(y)
    && TestSize(|y|) >= ClassCount(y)
  }

  /** Two sequences that put the same positions together have the same class
      sizes and the same number of classes. */
  lemma {:induction false} SamePartitionCounts<T, U>(y: seq<T>, z: seq<U>)
    requires |y| == |z|
    requires forall i, j :: 0 <= i < |y| && 0 <= j < |y| ==> (y[i] == y[j] <==> z[i] == z[j])
    ensures ClassCount(y) == ClassCount(z)
    ensures forall i :: 0 <= i < |y| ==> Count(y, y[i]) == Count(z, z[i])
    ensures StratifiedFeasible(y) <==> StratifiedFeasible(z)
  {
    assert (set i | 0 <= i < |y| && (forall j :: 0 <= j < i ==> y[j] != y[i]))
        == (set i | 0 <= i < |z| && (forall j :: 0 <= j < i ==> z[j] != z[i]));
    forall i | 0 <= i < |y|
      ensures Count(y, y[i]) == Count(z, z[i])
    {
      assert (set k | 0 <= k < |y| && y[k] == y[i]) == (set k | 0 <= k < |z| && z[k] == z[i]);
    }
  }

  /** The library calls, each a function of the data it is given. The discount
      split is a fixed permutation of the row positions, so its scaler depends on
      the features only; the platform split is stratified, so its scaler and
      classifier also depend on the targets. `heldOutR2` is the R² on the held-out
      rows, a number whenever at least two rows are held out. Whether the
      classification report accepts the predicted labels depends on the
      predictions, so `reportAccepts` answers it. */
  datatype Learners = Learners(
    fitScaler: seq<seq<real>> -> Scaler,
    fitRegressor: (string, seq<seq<real>>, seq<real>) -> Regressor,
    heldOutR2: (string, seq<seq<real>>, seq<real>) -> real,
    fitPlatformScaler: (seq<seq<real>>, seq<int>) -> Scaler,
    fitClassifier: (seq<seq<real>>, seq<int>) -> Classifier,
    reportAccepts: (seq<seq<real>>, seq<int>) -> bool)

  const CandidateNames: seq<string> := ["Linear Regression", "Random Forest", "Gradient Boosting", "XGBoost"]
  const PlatformModelName := "Random Forest Classifier"

  /** A fitted regressor and its held-out R²; None stands for NaN. */
  datatype Candidate = Candidate(name: string, model: Regressor, r2: Option<real>)

  /** Candidate `k` has a score, no scored one among the first `n` beats it, and
      every scored one before it is strictly worse. */
  ghost predicate FirstBest(cands: seq<Candidate>, n: nat, k: nat)
    requires n <= |cands|
  {
    && k < n
    && cands[k].r2.Some?
    && (forall j :: 0 <= j < n && cands[j].r2.Some? ==> cands[j].r2.value <= cands[k].r2.value)
    && (forall j :: 0 <= j < k && cands[j].r2.Some? ==> cands[j].r2.value < cands[k].r2.value)
  }

  /** Some candidate among the first `n` has a score. */
  ghost predicate AnyScored(cands: seq<Candidate>, n: nat)
    requires n <= |cands|
  {
    exists j :: 0 <= j < n && cands[j].r2.Some?
  }

  /** The selection loop from candidate `i` on, `best` holding the winner so far
      (None while the best score is still minus infinity). NaN compares false
      with everything, so an unscored candidate never takes the lead. */
  function SelectFrom(cands: seq<Candidate>, i: nat, best: Option<nat>): (r: Option<nat>)
    requires i <= |cands|
    requires best.None? ==> forall j :: 0 <= j < i ==> cands[j].r2.None?
    requires best.Some? ==> FirstBest(cands, i, best.value)
    ensures r.Some? <==> AnyScored(cands, |cands|)
    ensures r.Some? ==> FirstBest(cands, |cands|, r.value)
    decreases |cands| - i
  {
    if i == |cands| then best
    else if cands[i].r2.Some? && (best.None? || cands[i].r2.value > cands[best.value].r2.value) then
      SelectFrom(cands, i + 1, Some(i))
    else SelectFrom(cands, i + 1, best)
  }

  /** Max-by-R² with a strict comparison from minus infinity: the first of the
      best scored candidates wins, and nothing is chosen when no score is a number. */
  function SelectBest(cands: seq<Candidate>): (r: Option<nat>)
    ensures r.Some? <==> AnyScored(cands, |cands|)
    ensures r.Some? ==> FirstBest(cands, |cands|, r.value)
  {
    SelectFrom(cands, 0, None)
  }

  /** The first-best candidate is unique: the selection rule leaves no choice. */
  lemma FirstBestUnique(cands: seq<Candidate>, n: nat, k: nat, k': nat)
    requires n <= |cands|
    requires FirstBest(cands, n, k) && FirstBest(cands, n, k')
    ensures k == k'
  {
    assert cands[k].r2.value == cands[k'].r2.value;
  }

  datatype DiscountStage = DiscountStage(model: Option<Regressor>, scaler: Scaler, features: seq<string>, name: string)
  datatype PlatformStage = PlatformStage(model: Classifier, scaler: Scaler, features: seq<string>)

  /** Which training step raised. */
  datatype TrainError = DiscountSplitFailed | PlatformSplitFailed | ClassificationReportFailed

  function DiscountTargets(rows: seq<EngineeredRow>): (y: seq<real>)
    ensures |y| == |rows| && forall i :: 0 <= i < |rows| ==> y[i] == rows[i].discountPercent
  {
    seq(|rows|, i requires 0 <= i < |rows| => rows[i].discountPercent)
  }

  function PlatformTargets(rows: seq<EngineeredRow>): (y: seq<int>)
    ensures |y| == |rows| && forall i :: 0 <= i < |rows| ==> y[i] == rows[i].platformEncoded
  {
    seq(|rows|, i requires 0 <= i < |rows| => rows[i].platformEncoded)
  }

  function Score(l: Learners, name: string, x: seq<seq<real>>, y: seq<real>): Option<real>
  {
    if TestSize(|y|) < 2 then None else Some(l.heldOutR2(name, x, y))
  }

  function Candidates(l: Learners, x: seq<seq<real>>, y: seq<real>): (cands: seq<Candidate>)
    ensures |cands| == |CandidateNames|
    ensures forall k :: 0 <= k < |cands| ==>
      cands[k] == Candidate(CandidateNames[k], l.fitRegressor(CandidateNames[k], x, y), Score(l, CandidateNames[k], x, y))
  {
    seq(|CandidateNames|, k requires 0 <= k < |CandidateNames| =>
      Candidate(CandidateNames[k], l.fitRegressor(CandidateNames[k], x, y), Score(l, CandidateNames[k], x, y)))
  }

  /** Trains the four regressors on the discount feature order and keeps the
      best. The split raises on a single row; with fewer than six rows every R²
      is NaN, so no model is kept and the name stays empty. */
  function TrainDiscountModel(rows: seq<EngineeredRow>, l: Learners): (r: Result<DiscountStage, TrainError>)
    ensures r.Failure? <==> |rows| <= 1
    ensures r.Failure? ==> r.error == DiscountSplitFailed
    ensures r.Success? ==> r.value.features == ColumnNames(DiscountFeatureCols)
    ensures r.Success? ==> r.value.scaler == l.fitScaler(Matrix(rows, DiscountFeatureCols))
    ensures r.Success? ==> (r.value.model.Some? <==> |rows| >= 6)
    ensures r.Success? && r.value.model.None? ==> r.value.name == ""
    ensures r.Success? && r.value.model.Some? ==>
      exists k :: (0 <= k < |CandidateNames| && r.value.name == CandidateNames[k]
        && r.value.model.value == l.fitRegressor(r.value.name, Matrix(rows, DiscountFeatureCols), DiscountTargets(rows))
        && FirstBest(Candidates(l, Matrix(rows, DiscountFeatureCols), DiscountTargets(rows)), |CandidateNames|, k))
  {
    SplitSizes(|rows|);
    if TrainSize(|rows|) == 0 then Failure(DiscountSplitFailed)
    else
      var x := Matrix(rows, DiscountFeatureCols);
      var y := DiscountTargets(rows);
      var cands := Candidates(l, x, y);
      var names := ColumnNames(DiscountFeatureCols);
      assert AnyScored(cands, |cands|) <==> |rows| >= 6 by {
        if |rows| >= 6 { assert cands[0].r2.Some?; }
      }
      match SelectBest(cands)
      case None => Success(DiscountStage(None, l.fitScaler(x), names, ""))
      case Some(k) => Success(DiscountStage(Some(cands[k].model), l.fitScaler(x), names, cands[k].name))
  }

  /** Trains the platform classifier on the platform feature order, after a
      split stratified on the platform codes; the classification report then
      raises unless it accepts the predicted labels. */
  function TrainPlatformModel(rows: seq<EngineeredRow>, l: Learners): (r: Result<PlatformStage, TrainError>)
    ensures r == Failure(PlatformSplitFailed) <==> !StratifiedFeasible(PlatformTargets(rows))
    ensures r == Failure(ClassificationReportFailed) <==>
      StratifiedFeasible(PlatformTargets(rows)) && !l.reportAccepts(Matrix(rows, PlatformFeatureCols), PlatformTargets(rows))
    ensures r.Success? ==> r.value.features == ColumnNames(PlatformFeatureCols)
    ensures r.Success? ==> r.value.model == l.fitClassifier(Matrix(rows, PlatformFeatureCols), PlatformTargets(rows))
    ensures r.Success? ==> r.value.scaler == l.fitPlatformScaler(Matrix(rows, PlatformFeatureCols), PlatformTargets(rows))
  {
    var x := Matrix(rows, PlatformFeatureCols);
    var y := PlatformTargets(rows);
    if !StratifiedFeasible(y) then Failure(PlatformSplitFailed)
    else if !l.reportAccepts(x, y) then Failure(ClassificationReportFailed)
    else Success(PlatformStage(l.fitClassifier(x, y), l.fitPlatformScaler(x, y), ColumnNames(PlatformFeatureCols)))
  }

  /** How a training run ends; only `Saved` writes files. */
  datatype TrainingOutcome =
    | NoData
    | PreprocessFailed(error: PreprocessError)
    | TrainingFailed(trainError: TrainError)
    | Saved(snapshot: Snapshot)

  /** The metadata dictionary written next to the models. */
  function Metadata(discountName: string): (m: map<string, string>)
    ensures m.Keys == {DiscountModelNameKey, PlatformModelNameKey}
    ensures m[DiscountModelNameKey] == discountName && m[PlatformModelNameKey] == PlatformModelName
  {
    map[DiscountModelNameKey := discountName, PlatformModelNameKey := PlatformModelName]
  }

  /** The eight files written by a successful run. */
  function SaveModels(prep: Prepared, d: DiscountStage, p: PlatformStage): (s: Snapshot)
    ensures s.discountModel == d.model && s.platformModel == Some(p.model)
    ensures s.discountScaler == Some(d.scaler) && s.platformScaler == Some(p.scaler)
    ensures s.discountFeatures == Some(d.features) && s.platformFeatures == Some(p.features)
    ensures s.labelEncoders.Some? && s.labelEncoders.value.Keys == {PlatformKey, CategoryKey}
    ensures s.labelEncoders.value[PlatformKey] == prep.platformEncoder
    ensures s.labelEncoders.value[CategoryKey] == prep.categoryEncoder
    ensures s.metadata == Some(Metadata(d.name))
  {
    Snapshot(
      discountModel := d.model,
      discountScaler := Some(d.scaler),
      discountFeatures := Some(d.features),
      platformModel := Some(p.model),
      platformScaler := Some(p.scaler),
      platformFeatures := Some(p.features),
      labelEncoders := Some(map[PlatformKey := prep.platformEncoder, CategoryKey := prep.categoryEncoder]),
      metadata := Some(Metadata(d.name)))
  }

  /** Steps three and four of a run: the discount regressor, then the platform
      classifier, then the eight files; the first step that raises ends the run. */
  function TrainAndSave(prep: Prepared, l: Learners): (r: TrainingOutcome)
    ensures r.Saved? || r.TrainingFailed?
    ensures r.Saved? <==> TrainDiscountModel(prep.rows, l).Success? && TrainPlatformModel(prep.rows, l).Success?
    ensures TrainDiscountModel(prep.rows, l).Failure? ==> r == TrainingFailed(DiscountSplitFailed)
    ensures r.Saved? ==>
      r.snapshot == SaveModels(prep, TrainDiscountModel(prep.rows, l).value, TrainPlatformModel(prep.rows, l).value)
  {
    match TrainDiscountModel(prep.rows, l)
    case Failure(e) => TrainingFailed(e)
    case Success(d) =>
      match TrainPlatformModel(prep.rows, l)
      case Failure(e) => TrainingFailed(e)
      case Success(p) => Saved(SaveModels(prep, d, p))
  }

  /** The training entry point: load, preprocess, train both models, save all
      eight files. Nothing is written unless every step got through. */
  function RunTraining(loaded: Option<seq<ProductRecord>>, l: Learners): (r: TrainingOutcome)
    ensures loaded.None? || |loaded.value| == 0 <==> r == NoData
    ensures r.PreprocessFailed? <==> r != NoData && Preprocess(loaded.value).Failure?
    ensures r.PreprocessFailed? ==> r.error == Preprocess(loaded.value).error
    ensures r != NoData && Preprocess(loaded.value).Success? ==> r == TrainAndSave(Preprocess(loaded.value).value, l)
  {
    if loaded.None? || |loaded.value| == 0 then NoData
    else match Preprocess(loaded.value)
      case Failure(e) => PreprocessFailed(e)
      case Success(prep) => TrainAndSave(prep, l)
  }

  /** Stratifying on the platform codes is stratifying on the platform names:
      the fitted encoder gives equal names, and only equal names, equal codes. */
  lemma {:induction false} StratifyOnCodes(data: seq<ProductRecord>)
    requires forall i :: 0 <= i < |data| ==> Binnable(data[i])
    ensures StratifiedFeasible(PlatformTargets(Preprocess(data).value.rows)) <==> StratifiedFeasible(Platforms(data))
  {
    var prep := Preprocess(data).value;
    var y := PlatformTargets(prep.rows);
    var names := Platforms(data);
    var pe := Fit(Platforms(data));
    forall i | 0 <= i < |y|
      ensures Encode(pe, names[i]) == Some(y[i])
    {
      LabelsFitted(data, i);
      assert prep.rows[i] == Engineer(pe, Fit(Categories(data)), data[i]);
    }
    forall i, j | 0 <= i < |y| && 0 <= j < |y|
      ensures y[i] == y[j] <==> names[i] == names[j]
    {
      assert Encode(pe, names[i]) == Some(y[i]) && Encode(pe, names[j]) == Some(y[j]);
    }
    SamePartitionCounts(y, names);
  }

  /** Non-empty data every row of which lies inside the bins, with every
      platform at least twice and enough rows to stratify, and predictions the
      classification report accepts. */
  predicate Trainable(data: seq<ProductRecord>, l: Learners)
  {
    && |data| > 0
    && (forall i :: 0 <= i < |data| ==> Binnable(data[i]))
    && StratifiedFeasible(Platforms(data))
    && l.reportAccepts(Matrix(Preprocess(data).value.rows, PlatformFeatureCols), PlatformTargets(Preprocess(data).value.rows))
  }

  /** Training writes its files exactly on trainable data. */
  lemma TrainingSucceedsIff(loaded: Option<seq<ProductRecord>>, l: Learners)
    ensures RunTraining(loaded, l).Saved? <==> loaded.Some? && Trainable(loaded.value, l)
  {
    if loaded.Some? && |loaded.value| > 0 && forall i :: 0 <= i < |loaded.value| ==> Binnable(loaded.value[i]) {
      var data := loaded.value;
      var prep := Preprocess(data).value;
      var d := TrainDiscountModel(prep.rows, l);
      var p := TrainPlatformModel(prep.rows, l);
      assert RunTraining(loaded, l) == TrainAndSave(prep, l);
      StratifyOnCodes(data);
      SplitSizes(|data|);
      assert p.Success? <==> (StratifiedFeasible(Platforms(data))
        && l.reportAccepts(Matrix(prep.rows, PlatformFeatureCols), PlatformTargets(prep.rows)));
      assert StratifiedFeasible(Platforms(data)) ==> d.Success?;
    }
  }

  /** A saved snapshot records the two feature orders, and passes the serving
      gate exactly when a discount regressor was chosen, from six rows on. */
  lemma SavedSnapshotLoads(data: seq<ProductRecord>, l: Learners)
    requires Trainable(data, l)
    ensures RunTraining(Some(data), l).Saved?
    ensures ModelsLoaded(RunTraining(Some(data), l).snapshot) <==> |data| >= 6
    ensures RunTraining(Some(data), l).snapshot.discountFeatures == Some(ColumnNames(DiscountFeatureCols))
    ensures RunTraining(Some(data), l).snapshot.platformFeatures == Some(ColumnNames(PlatformFeatureCols))
  {
    TrainingSucceedsIff(Some(data), l);
    var prep := Preprocess(data).value;
    var d := TrainDiscountModel(prep.rows, l).value;
    var p := TrainPlatformModel(prep.rows, l).value;
    assert RunTraining(Some(data), l) == TrainAndSave(prep, l) == Saved(SaveModels(prep, d, p));
    assert |prep.rows| == |data|;
    SnapshotLoadsIffModelKept(prep, d, p);
  }

  /** The eight files pass the serving gate exactly when a discount regressor was kept. */
  lemma SnapshotLoadsIffModelKept(prep: Prepared, d: DiscountStage, p: PlatformStage)
    requires d.features == ColumnNames(DiscountFeatureCols) && p.features == ColumnNames(PlatformFeatureCols)
    ensures ModelsLoaded(SaveModels(prep, d, p)) <==> d.model.Some?
  {
    assert |ColumnNames(DiscountFeatureCols)| == 8;
    assert |ColumnNames(PlatformFeatureCols)| == 7;
    assert PlatformKey in SaveModels(prep, d, p).labelEncoders.value;
  }

  /** A saved snapshot carries the two encoders fitted on the training labels. */
  lemma SavedEncoders(data: seq<ProductRecord>, l: Learners)
    requires Trainable(data, l)
    ensures RunTraining(Some(data), l).Saved?
    ensures var s := RunTraining(Some(data), l).snapshot;
      && s.labelEncoders.value.Keys == {PlatformKey, CategoryKey}
      && s.labelEncoders.value[PlatformKey] == Fit(Platforms(data))
      && s.labelEncoders.value[CategoryKey] == Fit(Categories(data))
  {
    TrainingSucceedsIff(Some(data), l);
    var prep := Preprocess(data).value;
    var s := SaveModels(prep, TrainDiscountModel(prep.rows, l).value, TrainPlatformModel(prep.rows, l).value);
    assert RunTraining(Some(data), l) == TrainAndSave(prep, l) == Saved(s);
  }

  /** The saved metadata names the fixed classifier and the chosen regressor, or
      the empty name when every R² was NaN. */
  lemma SavedMetadata(data: seq<ProductRecord>, l: Learners)
    requires Trainable(data, l)
    ensures RunTraining(Some(data), l).Saved?
    ensures var m := RunTraining(Some(data), l).snapshot.metadata.value;
      && m.Keys == {DiscountModelNameKey, PlatformModelNameKey}
      && m[PlatformModelNameKey] == PlatformModelName
      && (m[DiscountModelNameKey] in CandidateNames <==> |data| >= 6)
      && (|data| < 6 ==> m[DiscountModelNameKey] == "")
  {
    TrainingSucceedsIff(Some(data), l);
    var prep := Preprocess(data).value;
    var d := TrainDiscountModel(prep.rows, l).value;
    var s := SaveModels(prep, d, TrainPlatformModel(prep.rows, l).value);
    assert RunTraining(Some(data), l) == TrainAndSave(prep, l) == Saved(s);
    DiscountNameChosen(prep.rows, l);
  }

  /** The discount stage names a candidate exactly when it kept a model. */
  lemma DiscountNameChosen(rows: seq<EngineeredRow>, l: Learners)
    requires |rows| >= 2
    ensures TrainDiscountModel(rows, l).Success?
    ensures TrainDiscountModel(rows, l).value.name in CandidateNames <==> |rows| >= 6
    ensures |rows| < 6 ==> TrainDiscountModel(rows, l).value.name == ""
  {
    assert "" !in CandidateNames;
  }

  lemma DiscountColumns(row: EngineeredRow)
    ensures Select(row, DiscountFeatureCols) == [row.platformEncoded as real, row.categoryEncoded as real,
      row.price, row.rating, row.stock as real, row.priceRange as real, row.ratingCategory as real, row.stockStatus as real]
  {
    var v := Select(row, DiscountFeatureCols);
    assert forall k :: 0 <= k < 8 ==> v[k] == Column(row, DiscountFeatureCols[k]);
  }

  lemma PlatformColumns(row: EngineeredRow)
    ensures Select(row, PlatformFeatureCols) == [row.categoryEncoded as real, row.price, row.discountPercent,
      row.rating, row.stock as real, row.priceRange as real, row.discountEffectiveness]
  {
    var v := Select(row, PlatformFeatureCols);
    assert forall k :: 0 <= k < 7 ==> v[k] == Column(row, PlatformFeatureCols[k]);
  }

  /** The regressors are fitted on the records themselves: row `i` of the
      discount matrix holds record `i`'s two codes, raw columns and bins in the
      discount feature order, and its target is the record's discount. */
  lemma DiscountTrainingRow(data: seq<ProductRecord>, i: int)
    requires 0 <= i < |data| && forall j :: 0 <= j < |data| ==> Binnable(data[j])
    ensures var prep := Preprocess(data).value;
      var p := data[i];
      && |Matrix(prep.rows, DiscountFeatureCols)| == |DiscountTargets(prep.rows)| == |data|
      && Encode(Fit(Platforms(data)), p.platform).Some? && Encode(Fit(Categories(data)), p.category).Some?
      && Matrix(prep.rows, DiscountFeatureCols)[i] == [
           Encode(Fit(Platforms(data)), p.platform).value as real,
           Encode(Fit(Categories(data)), p.category).value as real,
           p.price, p.rating, p.stock as real,
           PriceBin(p.price).value as real, RatingBin(p.rating).value as real, StockBin(p.stock).value as real]
      && DiscountTargets(prep.rows)[i] == p.discountPercent
  {
    var prep := Preprocess(data).value;
    var p := data[i];
    var row := prep.rows[i];
    LabelsFitted(data, i);
    assert row == Engineer(Fit(Platforms(data)), Fit(Categories(data)), p);
    assert Matrix(prep.rows, DiscountFeatureCols)[i] == Select(row, DiscountFeatureCols);
    DiscountColumns(row);
  }

  /** The classifier is fitted on the records themselves: row `i` of the
      platform matrix holds record `i`'s category code, raw columns, price bin
      and discount effectiveness in the platform feature order, and its target
      decodes to the record's platform. */
  lemma PlatformTrainingRow(data: seq<ProductRecord>, i: int)
    requires 0 <= i < |data| && forall j :: 0 <= j < |data| ==> Binnable(data[j])
    ensures var prep := Preprocess(data).value;
      var p := data[i];
      && |Matrix(prep.rows, PlatformFeatureCols)| == |PlatformTargets(prep.rows)| == |data|
      && Encode(Fit(Categories(data)), p.category).Some?
      && Matrix(prep.rows, PlatformFeatureCols)[i] == [
           Encode(Fit(Categories(data)), p.category).value as real,
           p.price, p.discountPercent, p.rating, p.stock as real,
           PriceBin(p.price).value as real, Effectiveness(p.price, p.discountedPrice)]
      && Decode(Fit(Platforms(data)), PlatformTargets(prep.rows)[i]) == Some(p.platform)
  {
    var prep := Preprocess(data).value;
    var p := data[i];
    var row := prep.rows[i];
    LabelsFitted(data, i);
    assert row == Engineer(Fit(Platforms(data)), Fit(Categories(data)), p);
    assert Matrix(prep.rows, PlatformFeatureCols)[i] == Select(row, PlatformFeatureCols);
    PlatformColumns(row);
  }
}

=== FILE: wrappers.dfy ===
/** Failure-compatible Option and Result types shared by every module. */
module Wrappers {

  datatype Option<+T> = None | Some(value: T) {
    predicate IsFailure() { None? }

    function PropagateFailure<U>(): Option<U>
      requires None?
    {
      None
    }

    function Extract(): T
      requires Some?
    {
      value
    }
  }

  datatype Result<+R, +E> = Success(value: R) | Failure(error: E) {
    predicate IsFailure() { Failure? }

    function PropagateFailure<U>(): Result<U, E>
      requires Failure?
    {
      Failure(error)
    }

    function Extract(): R
      requires Success?
    {
      value
    }
  }
}
